=== FILE: README.md ===
# Workshop trace ingestion, modelled in Dafny

`workshop_trace_ingestion.py` replays a fixed corpus of recorded traces and
spans into an observability sink as if they had happened over the last 30
days. For each day it samples 3 to 7 conversation threads, and gives each
(thread, day) pair a fresh synthetic thread key. It lays each thread's traces
out back to back after a random business-hours anchor, with 30 to 180 s
between traces. Each trace gets a new time-sortable id and a new window whose
length is the trace's recorded `duration`. Each span's times are compressed
with the trace's single scale factor, and each span gets a new id generated
for its rescaled start. Parent links go through a per-trace replacement
table. Deny-listed trace fields and non-allow-listed span fields are dropped.
A failing span is skipped and not counted. A failing day is isolated from
the other days.

The model has twelve modules, in dependency order:

| file | module | what it holds |
|---|---|---|
| values.dfy | `Values` | field values, records, `parse_datetime`, `safe_thread_id`, the fault and result types |
| time_map.dfy | `TimeMap` | `compute_scale_factor`, the desired duration, the linear map of original instants onto the new window |
| oracles.dfy | `Oracles` | the injected collaborators as classes: random draws, id generators, the sink |
| ordering.dfy | `Ordering` | grouping by thread and the stable sort by start |
| layout.dfy | `Layout` | the day anchor and the well-formed layout of a thread's windows |
| rewrite.dfy | `Rewrite` | the trace and span rewrites, the replacement-id table, the field filters, hygiene |
| placement.dfy | `Placement` | what a thread's replay has placed in the sink so far |
| sink_log.dfy | `SinkLog` | what a stretch of the replay leaves in the sink, and how stretches compose |
| day_replay.dfy | `DayReplay` | `upload_traces_for_day`, as imperative methods over the sink, id and random objects |
| accounting.dfy | `Accounting` | the run totals of `main` |
| orchestrator.dfy | `Orchestrator` | `main`: thread discovery, the 30-day schedule, the fault-isolated day loop |
| findings.dfy | `Findings` | the sort key of line 125 as written |

Representation choices:

- **Time.** Instants are exact `real` seconds since the Unix epoch, in UTC. A
  parsed datetime also records whether it carried an offset. A naive value is
  read as UTC, as lines 70-73, 178-179, 191-192, 215-216 and 227-228 do.
- **Injected collaborators.** These are parameters:
  - `datetime.now` is a parameter: each day's replay takes its own clock
    reading, and the run takes the 30 readings as a sequence `clock`;
  - `fromisoformat` is a parser parameter `iso`;
  - `random` is a `RandomSource` object over an injected stream of raw draws;
  - `generate_id` and `uuid4` are an `IdSource` object whose counter makes
    every identifier fresh;
  - the Opik client is a `Sink` object. It appends the traces and spans it
    accepts and refuses those its two predicates reject.
- **Exceptions.** Exceptions are `Result` values. A trace without `id` raises
  `KeyError`. Dividing a non-numeric duration raises `TypeError`. The sink
  refusing a trace raises `SinkError`. Each of these ends the day. What was
  already submitted stays submitted.

Behaviour of the code that is easy to miss:

- Scale 1.0 is the fallback for a falsy duration, a missing or unparseable
  start or end time, or a non-positive window. A negative duration on a
  positive window is not a fallback: it yields a negative scale, which
  reverses a trace's spans (`TimeMap.NegativeDurationReversesSpans`).
- A span time that is absent or falsy is left as it is. Only a truthy one
  that does not parse falls back to the new trace start or end
  (`Rewrite.SpanTimesFollowTraceScale`).
- Consecutive traces of a thread are kept apart only when durations are
  non-negative. A negative duration lets a later trace start earlier
  (`Layout.NegativeDurationTimeTravel`).
- A thread whose synthetic key is falsy is skipped just like one without a
  key.
- The trace id is read (line 132) before anything else, so a trace without
  `id` raises `KeyError` even when its duration is also unusable.

## Model

| member | source | states |
|---|---|---|
| Values.ParseDatetime | workshop_trace_ingestion.py:42-52 | a datetime object is returned unchanged; anything that is neither a string nor a datetime is None |
| Values.SafeThreadId | workshop_trace_ingestion.py:34-39 | the trace's `thread_id` when present; a falsy value when absent |
| Values.Lookup | workshop_trace_ingestion.py:208-209 | `dict.get` on the replacement table: the entry when present, None otherwise |
| TimeMap.ComputeScaleFactor | workshop_trace_ingestion.py:55-81 | 1.0 when either timestamp is missing or unparseable, the duration is falsy, or the window is not positive; raises TypeError exactly when both parse and the duration is truthy but not a number; otherwise scale × (end − start) = duration / 1000 |
| TimeMap.DesiredSeconds | workshop_trace_ingestion.py:138 | 2.5 s when `duration` is absent; succeeds exactly when it is a number (otherwise TypeError), and then the result × 1000 is the duration |
| TimeMap.OriginalTraceStart | workshop_trace_ingestion.py:175-179 | the parsed original start when it parses, otherwise the new start |
| TimeMap.MapPoint | workshop_trace_ingestion.py:195-197 | an original instant moves to the new start plus its offset from the original start times the scale, so the original start lands on the new start |
| TimeMap.WindowMapsOntoSlot | workshop_trace_ingestion.py:75-81 | with a positive window and a non-zero duration, the original start maps onto the new start and the original end exactly onto the new end |
| TimeMap.UniformScaling | workshop_trace_ingestion.py:195-197 | mapped distances are original distances times the one per-trace scale, so a non-negative scale keeps sibling order |
| TimeMap.MissingDurationAsymmetry | workshop_trace_ingestion.py:65-68 | a missing duration gives scale 1.0 (default 0) but a 2.5 s window (default 2500 at line 138) |
| TimeMap.NegativeDurationReversesSpans | workshop_trace_ingestion.py:67-81 | a negative duration on a positive window passes the fallback, gives a negative scale and reverses any two instants |
| TimeMap.UnparseableTraceStartKeepsSpanTimes | workshop_trace_ingestion.py:175-177 | with an unparseable trace start the scale is 1.0 and offsets are measured from the new start, so every span instant is carried over unchanged |
| TimeMap.HalfScaleExample | workshop_trace_ingestion.py:75-81 | a 100 s window with duration 50000 gives scale 0.5, and an instant 40 s in lands 20 s after the new start |
| Oracles.RandomSource.RandInt | workshop_trace_ingestion.py:89-91 | `randint(lo, hi)` lies in [lo, hi] and consumes one draw |
| Oracles.RandomSource.Sample | workshop_trace_ingestion.py:303 | `sample(population, k)` has k elements, drawn without reuse (a sub-multiset of the population) |
| Oracles.DistinctSubMultiset | workshop_trace_ingestion.py:303 | a sample without reuse from duplicate-free threads is duplicate-free |
| Oracles.IdSource.GenerateId | workshop_trace_ingestion.py:152 | a never-before-returned id generated for the given instant |
| Oracles.IdSource.Uuid4 | workshop_trace_ingestion.py:309 | a never-before-returned key |
| Oracles.Sink.CreateTrace | workshop_trace_ingestion.py:168 | an accepted trace is appended and its handle is its position; a refused one changes nothing |
| Oracles.Sink.CreateSpan | workshop_trace_ingestion.py:262 | an accepted span is appended under its trace's handle; a refused one changes nothing |
| Ordering.ThreadTraces | workshop_trace_ingestion.py:102-108 | a thread's group holds only corpus traces carrying that thread id |
| Ordering.ThreadTracesComplete | workshop_trace_ingestion.py:102-108 | every corpus trace carrying the thread id is in the thread's group |
| Ordering.GroupByThread | workshop_trace_ingestion.py:101-108 | a thread has a group exactly when it is truthy, assigned to the day and has traces; its group is its traces in corpus order |
| Ordering.UnthreadedTraceNeverGrouped | workshop_trace_ingestion.py:104-105 | a trace without a truthy thread id is in no group |
| Ordering.StartKey | workshop_trace_ingestion.py:125 | the sort key: the parsed start as an instant, or `datetime.min` when the start is missing or does not parse (the corrected key; see Findings) |
| Ordering.InsertByStart | workshop_trace_ingestion.py:125 | the insertion step of the sort adds exactly one element |
| Ordering.InsertByStartSorted | workshop_trace_ingestion.py:125 | inserting into a sorted thread keeps it sorted |
| Ordering.SortByStart | workshop_trace_ingestion.py:125 | the sorted thread is a permutation of the group and is in non-decreasing start order |
| Ordering.SortByStartIsStable | workshop_trace_ingestion.py:125 | for every start key, the traces with that key keep their corpus order |
| Ordering.InsertByStartWithKey | workshop_trace_ingestion.py:125 | insertion puts an element after every earlier element with its key |
| Ordering.SortByStartOrder | workshop_trace_ingestion.py:125 | a trace with an earlier start comes before one with a later start |
| Ordering.MissingStartsSortFirst | workshop_trace_ingestion.py:125 | a trace with a missing or unparseable start comes before every trace with a start after datetime.min |
| Layout.DayAnchor | workshop_trace_ingestion.py:92 | the anchor lies on the same UTC calendar day, between 09:00:00 and 17:59:59 |
| Layout.WellLaidOutSnoc | workshop_trace_ingestion.py:140-149 | placing the next trace after the allowed gap keeps the layout well formed |
| Layout.LayoutNeverOverlaps | workshop_trace_ingestion.py:128-149 | with non-negative durations, each trace ends at least 30 s before any later trace of the thread starts |
| Layout.NegativeDurationTimeTravel | workshop_trace_ingestion.py:138-149 | a negative duration gives a well-formed layout in which the second trace starts before the first |
| Rewrite.RewriteTrace | workshop_trace_ingestion.py:131-165 | the submitted trace has the new id, window, thread key and project name, none of the five deny-listed fields, and every other field unchanged |
| Rewrite.SpansOf | workshop_trace_ingestion.py:172 | a trace's spans are corpus spans carrying its original id |
| Rewrite.SpansOfComplete | workshop_trace_ingestion.py:172 | every corpus span carrying the trace's original id is among them |
| Rewrite.RewriteTime | workshop_trace_ingestion.py:211-233 | a time rewrite touches only its own field and adds or removes no field |
| Rewrite.AllowedOnly | workshop_trace_ingestion.py:239-259 | the filtered span keeps exactly its allow-listed fields, unchanged |
| Rewrite.RewriteSpan | workshop_trace_ingestion.py:202-259 | the submitted span's keys are exactly the allow-listed ones among its own keys plus `id` and `parent_span_id`; its id and parent are the table's entries for the old id and parent, None when absent; every other allow-listed field except the two times is forwarded unchanged |
| Rewrite.IdStamp | workshop_trace_ingestion.py:188-197 | the instant a span's new id is generated for: its start mapped through the trace's scale; a span whose start is missing or does not parse gets the new trace start |
| Rewrite.ReplacementIds | workshop_trace_ingestion.py:182-199 | the first pass's table: each span with a truthy id, in order, gets the next generated id, stamped with the span's rescaled start; a repeated id keeps the last entry (its properties are the four lemmas below) |
| Rewrite.ReplacementIdsKeys | workshop_trace_ingestion.py:182-199 | the first pass's table maps exactly the truthy span ids |
| Rewrite.ReplacementIdsFresh | workshop_trace_ingestion.py:182-199 | every entry is an id generated during the first pass |
| Rewrite.ReplacementIdsInjective | workshop_trace_ingestion.py:182-199 | distinct old ids get distinct new ids |
| Rewrite.ReplacementIdStampedWithOwnStart | workshop_trace_ingestion.py:188-199 | the new id of the last span with a given id is generated for that span's own rescaled start |
| Rewrite.ParentLinkPreserved | workshop_trace_ingestion.py:208-209 | if A's parent is B's id, the rewritten A's parent is the rewritten B's id, a generated id |
| Rewrite.DanglingParentBecomesNull | workshop_trace_ingestion.py:209 | a parent that is no span id of the trace becomes None, never a stale id |
| Rewrite.DistinctSpansGetDistinctIds | workshop_trace_ingestion.py:199-208 | spans with different ids get different new ids |
| Rewrite.SpanTimesFollowTraceScale | workshop_trace_ingestion.py:211-237 | a truthy start (end) that parses maps through the trace's scale; one that does not parse becomes the new trace start (end); an absent or falsy one is untouched; `duration` is never forwarded |
| Rewrite.IdStampMatchesNewStart | workshop_trace_ingestion.py:188-219 | when a span's start is rewritten, its new id was generated for exactly its new start |
| Rewrite.SubmittedSpans | workshop_trace_ingestion.py:201-265 | the second pass's creations: spans without a truthy id are skipped, and each other span, rewritten, is created under the trace's handle unless the sink refuses it (properties in SubmittedSpansHygienic) |
| Rewrite.RewrittenSpanHygienic | workshop_trace_ingestion.py:202-259 | a rewritten span has only allow-listed keys, a fresh id of the trace's pass, and a parent that is None or another such id |
| Rewrite.SubmittedSpansHygienic | workshop_trace_ingestion.py:202-265 | every span created sits under the trace's handle, is hygienic and was accepted; there are never more creations than spans |
| Rewrite.RewrittenTraceHygienic | workshop_trace_ingestion.py:152-165 | a submitted trace has a fresh id, offset-aware UTC start and end, the thread key and the project name, and no deny-listed field |
| Placement.PlacedSpans | workshop_trace_ingestion.py:171-265 | the span creations one placed trace yields: its corpus spans, rewritten with the trace's scale and new window under replacement ids numbered after the trace's id, as far as the sink accepts them |
| Placement.PlacedSnoc | workshop_trace_ingestion.py:130-158 | submitting the next trace, with its computed scale and desired duration, in a slot that follows the layout and under an id generated for the slot's start, extends what the thread has placed by exactly that rewritten trace |
| Placement.SpansLaidSnoc | workshop_trace_ingestion.py:171-265 | appending the next trace's span creations keeps the thread's span log equal to the concatenation, trace by trace, of each placed trace's span creations |
| SinkLog.SubmissionsChain | workshop_trace_ingestion.py:114-122 | two stretches of replay in a row leave hygienic traces and spans with ids minted in the combined range |
| SinkLog.SubmissionsOneTrace | workshop_trace_ingestion.py:152-265 | one hygienic trace followed by hygienic spans under it is a well-formed stretch |
| DayReplay.BuildReplacementIds | workshop_trace_ingestion.py:181-199 | the first pass builds the replacement table and generates one id per span with a truthy id |
| DayReplay.SubmitSpans | workshop_trace_ingestion.py:201-265 | the second pass submits, in order, the rewritten spans the sink accepts; `created` counts exactly those; traces are unchanged |
| DayReplay.ReplaySpans | workshop_trace_ingestion.py:181-265 | every span created sits under the trace, has a fresh id and a parent that is None or fresh; created is at most the trace's span count |
| DayReplay.ReplayTrace | workshop_trace_ingestion.py:131-265 | the trace is refused exactly when the sink rejects its rewrite under an id generated for its new start; an accepted trace is appended so rewritten, and the span log grows by exactly the trace's placed span creations; a refused trace changes neither log |
| DayReplay.RefusedAt | workshop_trace_ingestion.py:152-168 | the sink refuses a trace rewritten under a given id into the window that starts at a given instant and lasts the trace's desired duration |
| DayReplay.RefusedNext | workshop_trace_ingestion.py:127-168 | the refused window of the thread's next trace follows the layout: 0 to 14400 s after the anchor for the first trace, 30 to 180 s after the previous window otherwise |
| DayReplay.TraceFault | workshop_trace_ingestion.py:132-168 | why replaying a trace raises, in the order of the checks: no `id` (KeyError), then an unusable duration in the scale, then in the desired length (TypeError), and otherwise a sink refusal of its rewrite |
| DayReplay.ReplayPlaced | workshop_trace_ingestion.py:151-265 | one step of the thread loop after the checks: an accepted trace extends the placed traces and span log by exactly itself and its span creations; a refusal is a refusal of the next trace in its laid-out window, with the id generated for it, and changes neither log |
| DayReplay.ReplayThread | workshop_trace_ingestion.py:127-265 | the trace log grows by exactly the thread's first traces, rewritten into well-laid-out windows whose lengths are their desired durations, under ids generated for the windows' starts, each with its computed scale; the span log grows by exactly their span creations; on success every trace is placed; a raise is the first failing check of the next trace; it is SinkError exactly when the sink refused the next trace's rewrite under the last generated id, in a window that follows the layout |
| DayReplay.Chronological | workshop_trace_ingestion.py:125-149 | of two placed traces, the one with the earlier original start was placed first and ends before the other starts |
| DayReplay.ThreadChronology | workshop_trace_ingestion.py:125-149 | of two traces with different original starts, the earlier is replayed first and, with non-negative durations, ends before the later starts |
| DayReplay.SortAndReplayThread | workshop_trace_ingestion.py:118-149 | the group sorted by start is replayed as above: the trace and span logs grow by exactly its first traces and their span creations, all of them when it completes; with non-negative durations the placed traces are chronological; a raise is a fault of the sorted group's next trace |
| DayReplay.ThreadsForDay | workshop_trace_ingestion.py:95 | the day's threads, empty for a day without an entry |
| DayReplay.DayTraceCountSnoc | workshop_trace_ingestion.py:114-122 | each assigned thread adds its group's size to the day's count exactly when it is replayed |
| DayReplay.ThreadFault | workshop_trace_ingestion.py:113-168 | a thread replayed on the day has a trace, in its sorted order, whose replay raises the fault |
| DayReplay.DayFault | workshop_trace_ingestion.py:84-168 | one of the day's replayed threads has a trace whose replay raises the fault |
| DayReplay.ReplayDayThread | workshop_trace_ingestion.py:114-122 | one assigned thread: it adds its group's size to the count exactly when it has traces and a truthy key, and a raise is a fault of that thread |
| DayReplay.ReplayAssignedThreads | workshop_trace_ingestion.py:101-122 | every trace submitted carries a key of the day's threads, with fresh ids; a completed day reports every trace of its replayed threads and counts what was submitted; a raising day raises for a trace of one of its replayed threads |
| DayReplay.DrawDayAnchor | workshop_trace_ingestion.py:87-92 | three draws give an anchor on the calendar day `dayOffset` days before now, between 09:00:00 and 17:59:59 |
| DayReplay.UploadTracesForDay | workshop_trace_ingestion.py:84-122 | a day without threads submits nothing and reports (0, 0); a completed day reports what it submitted, which is every trace of its replayed threads; a raising day raises for a trace of one of its replayed threads |
| Accounting.Totals | workshop_trace_ingestion.py:317-323 | the run totals: the counts of the days that returned, summed |
| Accounting.TotalsAppend | workshop_trace_ingestion.py:317-323 | a day that returned adds its counts to the totals; a day that raised adds nothing |
| Accounting.FailedDaysCountZero | workshop_trace_ingestion.py:317-329 | a day that raised counts exactly as a day that returned (0, 0) |
| Accounting.TallyStep | workshop_trace_ingestion.py:317-329 | the totals stay the sums over returning days, never exceed what was submitted, and equal it while no day raised |
| Orchestrator.UniqueThreads | workshop_trace_ingestion.py:283-291 | the run's threads are exactly the truthy thread ids of the corpus, each once |
| Orchestrator.ScheduleThreads | workshop_trace_ingestion.py:296-309 | days 1..30 each get between min(3,n) and min(7,n) threads, distinct; every sampled (thread, day) pair gets a key; keys are pairwise distinct and fresh |
| Orchestrator.ReplayDay | workshop_trace_ingestion.py:318-323 | one day: an idle day reports (0, 0), a completed day its threads' traces, a raising day a fault of one of its replayed threads; everything submitted carries a run key and fresh ids |
| Orchestrator.ReplayAllDays | workshop_trace_ingestion.py:317-329 | all 30 days are attempted, day i with its own clock reading `clock[i - 1]`; the totals are the sums over the days that returned; every day's report is as above |
| Orchestrator.Run | workshop_trace_ingestion.py:275-329 | the run's threads are the corpus's n truthy thread ids, once each; each of days 1..30 samples between min(3,n) and min(7,n) of them without repetition; every sampled (thread, day) pair gets a key and only sampled pairs do; keys are distinct and fresh; the totals sum the completed days' reports and never exceed what was submitted; every trace carries one of the keys |
| Findings.AsWrittenKey | workshop_trace_ingestion.py:125 | the key as written: its instant is the corrected key's; a missing start is offset-aware |
| Findings.AsWrittenSort | workshop_trace_ingestion.py:125 | the sort as written raises TypeError exactly when a thread mixes naive and aware keys; otherwise it is a sorted permutation |
| Findings.UniformKeysOrderAsCorrected | workshop_trace_ingestion.py:125 | with keys of one kind, the as-written order agrees with the corrected order |
| Findings.NaiveAndMissingStartRaise | workshop_trace_ingestion.py:125 | a thread with a naive start and a missing start raises as written; the corrected sort puts the missing start first |

## Left out

- The client setup and environment variables (lines 10-15) are not modelled. The sink is an object with two refusal predicates.
- Loading the JSON corpus (lines 18-31) is not modelled. The traces and spans are inputs.
- `print`, `strftime`, `time.time`, `time.sleep` and `traceback` are not modelled. They only log, time and pause.
- `datetime.now` is not modelled. The run takes one reading per day as the parameter `clock`, with nothing assumed about their order, so a run that crosses UTC midnight may put two days on one date, as the source does.
- `fromisoformat` and the 'Z' and space rewriting (lines 46-47) are not modelled. They are the parser parameter `iso`.
- Random draws come from an injected stream of raw values. CPython's generator is not modelled. Neither is the exact way `random.sample` picks positions: only ranges and sampling without reuse are stated.
- The textual, time-sortable encoding of generated ids is not modelled. Neither is the `str()` of a uuid4. An id records only its serial number and the instant it was generated for.
- Times are exact reals. Float rounding of `duration / 1000.0` and microsecond rounding in `timedelta` are not modelled. Neither is the `OverflowError` of an out-of-range datetime.
- The calendar is not modelled beyond days of 86400 s on the UTC axis: `replace(hour=…)` is the UTC midnight plus the drawn time of day.
- TimeMap.DesiredSeconds: booleans are not numbers in this model. Python divides a boolean duration as 0 or 1; the model raises.
- TimeMap.ComputeScaleFactor: the same boolean simplification applies.
- Records are always maps. The `AttributeError` branch of `safe_thread_id` (line 38) and unhashable thread ids are not modelled.
- Rewrite.ReplacementIds: an unhashable span `id` (a truthy array or object) raises TypeError at line 199, and an unhashable `parent_span_id` (any array or object) raises at line 209; both are outside the per-span `try` and end the day. The model has no hashability and uses such values as table keys, so Rewrite.RewriteSpan, DayReplay.ReplayTrace and DayReplay.TraceFault do not report this error.
- Python's `==` between numbers and booleans (`1 == True`) is not modelled. The model compares values structurally.
- The source copies each trace and span before rewriting (lines 131, 203). The corpus is left unmutated only through value semantics.
- The group list is sorted in place at line 125. The model sorts a copy. A group that is replayed twice on the same day is sorted twice in the source, which gives the same order.
- Orchestrator.UniqueThreads: the insertion order of the thread list is not stated, only its contents and that it has no duplicates.
- DayReplay.ReplayAssignedThreads: it does not give the exact sequence of records submitted. It gives their hygiene, their keys, their id range and the trace count.
- DayReplay.UploadTracesForDay: the same limitation applies.
- Orchestrator.ReplayDay: the same limitation applies.
- DayReplay.SortAndReplayThread: the day replay sorts with the corrected key, which reads naive starts as UTC. With the key as written at line 125, a thread that mixes naive starts with missing or offset-aware ones raises TypeError and ends the day; that behaviour is modelled separately by Findings.AsWrittenSort (see Findings).
- DayReplay.SortAndReplayThread: the refused record of a raising thread is named by ReplayThread; SortAndReplayThread passes on only the fault.
- Asynchronous flushing inside the sink is not modelled.

## Findings

| source | as written | input that shows it | evidently intended | confidence | as-written member | corrected member |
|---|---|---|---|---|---|---|
| workshop_trace_ingestion.py:125 | the sort key is the parsed start as it is (naive when the text has no offset), or offset-aware `datetime.min` when missing; Python raises TypeError when it compares a naive datetime with an aware one, which ends the whole day | a thread with one trace whose `start_time` is "2024-01-01T09:00:00" and one trace without `start_time` | read naive starts as UTC, as the rest of the replay does (lines 70-73), so missing starts sort first and the day completes | not executed; medium: the corpus may only contain offset-carrying strings | Findings.NaiveAndMissingStartRaise | Ordering.SortByStart |

=== FILE: accounting.dfy ===
/**
 * The run totals of main: what the days that returned reported, summed.
 */
module Accounting {
  import opened Values

  /** The run totals: the sum of the counts of the days that returned. */
  function Totals(outcomes: seq<Result<(nat, nat)>>): (nat, nat)
  {
    if outcomes == [] then (0, 0)
    else
      var sofar := Totals(outcomes[..|outcomes| - 1]);
      match outcomes[|outcomes| - 1]
      case Ok(counts) => (sofar.0 + counts.0, sofar.1 + counts.1)
      case Err(_) => sofar
  }

  /** A day that raised adds nothing; a day that returned adds exactly its counts. */
  lemma TotalsAppend(outcomes: seq<Result<(nat, nat)>>, last: Result<(nat, nat)>)
    ensures Totals(outcomes + [last]).0 == Totals(outcomes).0 + (if last.Ok? then last.value.0 else 0)
    ensures Totals(outcomes + [last]).1 == Totals(outcomes).1 + (if last.Ok? then last.value.1 else 0)
  {
    assert (outcomes + [last])[..|outcomes|] == outcomes;
  }

  /** A day that raised counts exactly as a day that returned (0, 0) would. */
  lemma {:induction false} FailedDaysCountZero(outcomes: seq<Result<(nat, nat)>>)
    ensures Totals(outcomes) == Totals(seq(|outcomes|, k requires 0 <= k < |outcomes| =>
                                      if outcomes[k].Ok? then outcomes[k] else Ok((0, 0))))
    decreases |outcomes|
  {
    if outcomes != [] {
      var n := |outcomes|;
      var patched := seq(n, k requires 0 <= k < n => if outcomes[k].Ok? then outcomes[k] else Ok((0, 0)));
      var patchedInit := seq(n - 1, k requires 0 <= k < n - 1 =>
                              if outcomes[..n - 1][k].Ok? then outcomes[..n - 1][k] else Ok((0, 0)));
      assert patched[..n - 1] == patchedInit;
      FailedDaysCountZero(outcomes[..n - 1]);
    }
  }

  /**
   * The running totals after some days: the sum of what the returning days
   * reported, never more than what was submitted (`submittedTraces`,
   * `submittedSpans`), and all of it when no day raised.
   */
  ghost predicate Tally(outcomes: seq<Result<(nat, nat)>>, totalTraces: nat, totalSpans: nat,
                        submittedTraces: int, submittedSpans: int)
  {
    && totalTraces == Totals(outcomes).0 && totalSpans == Totals(outcomes).1
    && totalTraces <= submittedTraces && totalSpans <= submittedSpans
    && ((forall d :: 0 <= d < |outcomes| ==> outcomes[d].Ok?) ==>
          totalTraces == submittedTraces && totalSpans == submittedSpans)
  }

  /**
   * One more day: a day that returned adds its report to the totals, and its
   * report is what it submitted; a day that raised adds nothing to the
   * totals, though it may have submitted something.
   */
  lemma TallyStep(outcomes: seq<Result<(nat, nat)>>, totalTraces: nat, totalSpans: nat,
                  submittedTraces: int, submittedSpans: int, outcome: Result<(nat, nat)>,
                  totalTraces': nat, totalSpans': nat, submittedTraces': int, submittedSpans': int)
    requires Tally(outcomes, totalTraces, totalSpans, submittedTraces, submittedSpans)
    requires outcome.Ok? ==>
               && totalTraces' == totalTraces + outcome.value.0 && totalSpans' == totalSpans + outcome.value.1
               && submittedTraces' == submittedTraces + outcome.value.0
               && submittedSpans' == submittedSpans + outcome.value.1
    requires outcome.Err? ==>
               && totalTraces' == totalTraces && totalSpans' == totalSpans
               && submittedTraces <= submittedTraces' && submittedSpans <= submittedSpans'
    ensures Tally(outcomes + [outcome], totalTraces', totalSpans', submittedTraces', submittedSpans')
  {
    TotalsAppend(outcomes, outcome);
    var all := outcomes + [outcome];
    if forall d :: 0 <= d < |all| ==> all[d].Ok? {
      assert forall d :: 0 <= d < |outcomes| ==> outcomes[d].Ok? by {
        forall d | 0 <= d < |outcomes| ensures outcomes[d].Ok? {
          assert all[d] == outcomes[d];
        }
      }
      assert all[|outcomes|] == outcome;
    }
  }
}

=== FILE: day_replay.dfy ===
/**
 * The day replay driver (upload_traces_for_day): lays out each assigned
 * thread's traces on the synthetic day, rewrites traces and spans, and
 * submits them to the sink.
 */
module DayReplay {
  import opened Values
  import opened TimeMap
  import opened Oracles
  import opened Ordering
  import opened Layout
  import opened Rewrite
  import opened SinkLog
  import opened Placement

  /**
   * First pass over a trace's spans: each span with a truthy id gets a new id
   * generated for its rescaled start.
   */
  method BuildReplacementIds(spans: seq<Record>, rs: Rescale, iso: IsoParser, ids: IdSource)
    returns (table: map<Value, Value>)
    modifies ids
    ensures table == ReplacementIds(spans, old(ids.serial), rs, iso)
    ensures ids.serial == old(ids.serial) + CountIds(spans)
  {
    ghost var first := ids.serial;
    table := map[];
    var i := 0;
    while i < |spans|
      invariant 0 <= i <= |spans|
      invariant table == ReplacementIds(spans[..i], first, rs, iso)
      invariant ids.serial == first + CountIds(spans[..i])
    {
      var span := spans[i];
      assert spans[..i + 1][..i] == spans[..i];
      var spanId := SpanId(span);
      if Truthy(spanId) {
        var spanStart := match ParseDatetime(Get(span, "start_time"), iso)
                         case Some(d) => d.secs
                         case None => rs.origStart;
        var newId := ids.GenerateId(MapPoint(rs, spanStart));
        table := table[spanId := newId];
      }
      i := i + 1;
    }
    assert spans[..i] == spans;
  }

  lemma SubmittedSpansSnoc(handle: nat, spans: seq<Record>, i: int, table: map<Value, Value>, rs: Rescale,
                           iso: IsoParser, rejects: Record -> bool)
    requires 0 <= i < |spans|
    ensures SubmittedSpans(handle, spans[..i + 1], table, rs, iso, rejects)
            == SubmittedSpans(handle, spans[..i], table, rs, iso, rejects)
               + (if Truthy(SpanId(spans[i])) && !rejects(RewriteSpan(spans[i], table, rs, iso))
                  then [SpanCall(handle, RewriteSpan(spans[i], table, rs, iso))] else [])
  {
    assert spans[..i + 1][..i] == spans[..i];
  }

  /**
   * Second pass: each span with a truthy id is rewritten and submitted under
   * the trace's handle; a refused span is skipped and not counted.
   */
  method SubmitSpans(handle: nat, spans: seq<Record>, table: map<Value, Value>, rs: Rescale, iso: IsoParser, sink: Sink)
    returns (created: nat)
    requires handle < |sink.traces|
    modifies sink
    ensures sink.traces == old(sink.traces)
    ensures sink.spans == old(sink.spans) + SubmittedSpans(handle, spans, table, rs, iso, sink.rejectsSpan)
    ensures created == |SubmittedSpans(handle, spans, table, rs, iso, sink.rejectsSpan)|
  {
    created := 0;
    ghost var done: seq<SpanCall> := [];
    var i := 0;
    while i < |spans|
      invariant 0 <= i <= |spans|
      invariant sink.traces == old(sink.traces)
      invariant done == SubmittedSpans(handle, spans[..i], table, rs, iso, sink.rejectsSpan)
      invariant sink.spans == old(sink.spans) + done
      invariant created == |done|
    {
      var span := spans[i];
      var rewritten := RewriteSpan(span, table, rs, iso);
      ghost var step := if Truthy(SpanId(span)) && !sink.rejectsSpan(rewritten) then [SpanCall(handle, rewritten)] else [];
      SubmittedSpansSnoc(handle, spans, i, table, rs, iso, sink.rejectsSpan);
      AppendAssoc(old(sink.spans), done, step);
      if Truthy(SpanId(span)) {
        var ok := sink.CreateSpan(handle, rewritten);
        if ok {
          created := created + 1;
        }
      }
      done := done + step;
      i := i + 1;
    }
    assert spans[..i] == spans;
  }

  /**
   * A submitted trace's spans: the replacement table built by the first
   * pass, then the second pass submitting the rewritten spans under the
   * trace's handle. Every span created carries a freshly generated id, and
   * its parent is Null or one of those ids.
   */
  method ReplaySpans(handle: nat, traceSpans: seq<Record>, rs: Rescale, iso: IsoParser, ids: IdSource, sink: Sink)
    returns (created: nat)
    requires handle < |sink.traces|
    modifies ids, sink
    ensures ids.serial == old(ids.serial) + CountIds(traceSpans)
    ensures sink.traces == old(sink.traces)
    ensures sink.spans == old(sink.spans) + SubmittedSpans(handle, traceSpans,
              ReplacementIds(traceSpans, old(ids.serial), rs, iso), rs, iso, sink.rejectsSpan)
    ensures created == |sink.spans| - |old(sink.spans)| <= |traceSpans|
    ensures forall k :: |old(sink.spans)| <= k < |sink.spans| ==>
              sink.spans[k].trace == handle && SpanHygienic(sink.spans[k].record, old(ids.serial), ids.serial)
  {
    var table := BuildReplacementIds(traceSpans, rs, iso, ids);
    created := SubmitSpans(handle, traceSpans, table, rs, iso, sink);
    forall s | s in traceSpans && Truthy(SpanId(s))
      ensures SpanHygienic(RewriteSpan(s, table, rs, iso), old(ids.serial), ids.serial)
    {
      RewrittenSpanHygienic(traceSpans, old(ids.serial), rs, iso, s);
    }
    SubmittedSpansHygienic(handle, traceSpans, table, rs, iso, sink.rejectsSpan, old(ids.serial), ids.serial);
    forall k | |old(sink.spans)| <= k < |sink.spans|
      ensures sink.spans[k] in SubmittedSpans(handle, traceSpans, table, rs, iso, sink.rejectsSpan)
    {
      assert sink.spans[k] == SubmittedSpans(handle, traceSpans, table, rs, iso, sink.rejectsSpan)[k - |old(sink.spans)|];
    }
  }

  /**
   * One trace placed at [start, end]: a new trace id generated for its new
   * start, the rewritten trace submitted, then its spans (those whose
   * trace_id is the trace's original id) rewritten with the trace's single
   * scale and submitted under it, in order, as far as the sink accepts
   * them. A refused trace stops here.
   */
  method ReplayTrace(trace: Record, allSpans: seq<Record>, scale: real, start: real, end: real, key: Value,
                     iso: IsoParser, ids: IdSource, sink: Sink)
    returns (ok: bool, spansCreated: nat)
    requires "id" in trace
    modifies ids, sink
    ensures ok == !sink.rejectsTrace(RewriteTrace(trace, Minted(old(ids.serial), Some(start)), start, end, key))
    ensures !ok ==> sink.traces == old(sink.traces) && sink.spans == old(sink.spans)
                    && ids.serial == old(ids.serial) + 1
    ensures ok ==> sink.traces == old(sink.traces) + [RewriteTrace(trace, Minted(old(ids.serial), Some(start)), start, end, key)]
    ensures ok ==> ids.serial == old(ids.serial) + 1 + CountIds(SpansOf(allSpans, trace["id"]))
    ensures ok ==> spansCreated == |sink.spans| - |old(sink.spans)| <= |SpansOf(allSpans, trace["id"])|
    ensures ok ==> sink.spans == old(sink.spans) + PlacedSpans(trace, allSpans, |old(sink.traces)|, Minted(old(ids.serial), Some(start)),
                                                              scale, Slot(start, end), iso, sink.rejectsSpan)
    ensures Submissions(old(sink.traces), sink.traces, old(sink.spans), sink.spans, old(ids.serial), ids.serial, {key})
  {
    var saveId := trace["id"];
    var traceId := ids.GenerateId(start);
    var handle;
    ok, handle := sink.CreateTrace(RewriteTrace(trace, traceId, start, end, key));
    RewrittenTraceHygienic(trace, traceId, start, end, key, old(ids.serial), ids.serial);
    if !ok {
      spansCreated := 0;
      SubmissionsNone(sink.traces, sink.spans, old(ids.serial), ids.serial, {key});
      return;
    }
    var traceSpans := SpansOf(allSpans, saveId);
    var rs := TraceRescale(trace, iso, scale, start, end);
    spansCreated := ReplaySpans(handle, traceSpans, rs, iso, ids, sink);
    SubmissionsOneTrace(old(sink.traces), RewriteTrace(trace, traceId, start, end, key), old(sink.spans), sink.spans,
                        old(ids.serial), old(ids.serial) + 1, ids.serial, {key});
  }

  /**
   * The sink refuses `trace` rewritten into the window that starts at
   * `start` and lasts its desired duration, under the id numbered `serial`.
   */
  predicate RefusedAt(trace: Record, key: Value, serial: nat, start: real, rejects: Record -> bool)
  {
    DesiredSeconds(trace).Ok?
    && rejects(RewriteTrace(trace, Minted(serial, Some(start)), start, start + DesiredSeconds(trace).value, key))
  }

  /**
   * The sink refused the thread's next trace, rewritten under the id
   * numbered `serial` into the slot that starts at `start`, which follows
   * the layout: within 14400 s of the anchor for the first trace, 30 to
   * 180 s after the previous slot otherwise.
   */
  ghost predicate RefusedNext(threadTraces: seq<Record>, key: Value, anchor: real, slots: seq<Slot>, serial: nat,
                              start: real, rejects: Record -> bool)
  {
    && |slots| < |threadTraces|
    && RefusedAt(threadTraces[|slots|], key, serial, start, rejects)
    && (|slots| == 0 ==> anchor <= start <= anchor + ThreadSpreadMax as real)
    && (|slots| > 0 ==> GapMin as real <= start - slots[|slots| - 1].end <= GapMax as real)
  }

  /**
   * Why replaying `trace` raises, in the order the checks happen: a missing
   * id, then a duration the scale computation cannot divide, then a duration
   * the desired length cannot divide, and otherwise the sink refusing the
   * rewritten trace in some window.
   */
  ghost predicate TraceFault(trace: Record, iso: IsoParser, key: Value, rejects: Record -> bool, fault: Fault)
  {
    if "id" !in trace then fault == KeyError("id")
    else if ComputeScaleFactor(trace, iso).Err? then fault == ComputeScaleFactor(trace, iso).fault
    else if DesiredSeconds(trace).Err? then fault == DesiredSeconds(trace).fault
    else fault == SinkError && exists serial: nat, start: real :: RefusedAt(trace, key, serial, start, rejects)
  }

  /** A refused record, rewritten into a slot that follows the layout, is a refusal of the next trace. */
  lemma RefusedNextIntro(trace: Record, threadTraces: seq<Record>, key: Value, anchor: real, slots: seq<Slot>,
                          serial: nat, start: real, end: real, rejects: Record -> bool)
    requires |slots| < |threadTraces| && trace == threadTraces[|slots|]
    requires DesiredSeconds(trace).Ok? && end == start + DesiredSeconds(trace).value
    requires |slots| == 0 ==> anchor <= start <= anchor + ThreadSpreadMax as real
    requires |slots| > 0 ==> GapMin as real <= start - slots[|slots| - 1].end <= GapMax as real
    requires rejects(RewriteTrace(trace, Minted(serial, Some(start)), start, end, key))
    ensures RefusedNext(threadTraces, key, anchor, slots, serial, start, rejects)
  {
    assert RefusedAt(trace, key, serial, start, rejects);
  }

  /**
   * The step of the thread loop for its next trace, once that trace has
   * passed its checks and its slot is chosen: the trace is replayed into the
   * slot, and the thread's layout grows by it when the sink accepts it.
   */
  method ReplayPlaced(trace: Record, threadTraces: seq<Record>, allSpans: seq<Record>, key: Value, anchor: real,
                      iso: IsoParser, ids: IdSource, sink: Sink, start: real, end: real, d: real, scale: real,
                      ghost t0: seq<Record>, ghost s0: seq<SpanCall>, ghost n0: nat,
                      ghost slots: seq<Slot>, ghost durations: seq<real>, ghost scales: seq<real>,
                      ghost traceIds: seq<Value>, ghost chunks: seq<seq<SpanCall>>)
    returns (ok: bool, created: nat, ghost id: Value, ghost chunk: seq<SpanCall>)
    requires |slots| < |threadTraces| && trace == threadTraces[|slots|]
    requires "id" in trace && ComputeScaleFactor(trace, iso).Ok? && ComputeScaleFactor(trace, iso).value == scale
    requires DesiredSeconds(trace).Ok? && DesiredSeconds(trace).value == d && end == start + d
    requires |slots| == 0 ==> anchor <= start <= anchor + ThreadSpreadMax as real
    requires |slots| > 0 ==> GapMin as real <= start - slots[|slots| - 1].end <= GapMax as real
    requires Submissions(t0, sink.traces, s0, sink.spans, n0, ids.serial, {key})
    requires Placed(threadTraces, key, anchor, iso, t0, sink.traces, slots, durations, scales, traceIds)
    requires SpansLaid(threadTraces, allSpans, iso, sink.rejectsSpan, |t0|, s0, sink.spans, slots, scales, traceIds, chunks)
    modifies ids, sink
    ensures Submissions(t0, sink.traces, s0, sink.spans, n0, ids.serial, {key})
    ensures ok ==> Placed(threadTraces, key, anchor, iso, t0, sink.traces, slots + [Slot(start, end)], durations + [d],
                          scales + [scale], traceIds + [id])
    ensures ok ==> SpansLaid(threadTraces, allSpans, iso, sink.rejectsSpan, |t0|, s0, sink.spans, slots + [Slot(start, end)],
                             scales + [scale], traceIds + [id], chunks + [chunk])
    ensures ok ==> created == |sink.spans| - |old(sink.spans)|
    ensures !ok ==> sink.traces == old(sink.traces) && sink.spans == old(sink.spans)
    ensures !ok ==> id.Minted? && ids.serial == id.serial + 1
                    && RefusedNext(threadTraces, key, anchor, slots, id.serial, start, sink.rejectsTrace)
  {
    ghost var tracesBefore, spansBefore, serialBefore := sink.traces, sink.spans, ids.serial;
    id := Minted(serialBefore, Some(start));
    assert |tracesBefore| == |t0| + |slots|;
    ok, created := ReplayTrace(trace, allSpans, scale, start, end, key, iso, ids, sink);
    SubmissionsChain(t0, tracesBefore, sink.traces, s0, spansBefore, sink.spans,
                     n0, serialBefore, ids.serial, {key}, {key});
    chunk := PlacedSpans(trace, allSpans, |tracesBefore|, id, scale, Slot(start, end), iso, sink.rejectsSpan);
    if !ok {
      RefusedNextIntro(trace, threadTraces, key, anchor, slots, serialBefore, start, end, sink.rejectsTrace);
    } else {
      PlacedSnoc(threadTraces, key, anchor, iso, t0, tracesBefore, slots, durations, scales, traceIds, id, Slot(start, end), d, scale);
      SpansLaidSnoc(threadTraces, allSpans, iso, sink.rejectsSpan, |t0|, s0, spansBefore, slots, scales, traceIds, chunks,
                    trace, |tracesBefore|, id, Slot(start, end), scale, sink.spans);
    }
  }

  /**
   * One thread, its traces already in chronological order: a cursor starts
   * 0 to 14400 s after the anchor, each trace after the first waits 30 to
   * 180 s more, lasts its desired duration, and moves the cursor to its end.
   * Raises (ends the day) on a trace without an id, an unusable duration or a
   * refused trace, leaving what was already submitted in place.
   */
  method ReplayThread(threadTraces: seq<Record>, allSpans: seq<Record>, key: Value, anchor: real,
                      iso: IsoParser, rng: RandomSource, ids: IdSource, sink: Sink)
    returns (outcome: Result<(nat, nat)>, ghost slots: seq<Slot>, ghost durations: seq<real>, ghost scales: seq<real>,
             ghost traceIds: seq<Value>, ghost chunks: seq<seq<SpanCall>>, ghost refused: bool,
             ghost refusedSerial: nat, ghost refusedStart: real)
    modifies rng, ids, sink
    ensures Submissions(old(sink.traces), sink.traces, old(sink.spans), sink.spans, old(ids.serial), ids.serial, {key})
    ensures Placed(threadTraces, key, anchor, iso, old(sink.traces), sink.traces, slots, durations, scales, traceIds)
    ensures SpansLaid(threadTraces, allSpans, iso, sink.rejectsSpan, |old(sink.traces)|, old(sink.spans), sink.spans,
                      slots, scales, traceIds, chunks)
    ensures outcome.Ok? ==> |slots| == |threadTraces|
    ensures outcome.Err? ==> |slots| < |threadTraces| && TraceFault(threadTraces[|slots|], iso, key, sink.rejectsTrace, outcome.fault)
    ensures outcome.Err? && outcome.fault.SinkError? <==> refused
    ensures refused ==> ids.serial == refusedSerial + 1
    ensures refused ==> RefusedNext(threadTraces, key, anchor, slots, refusedSerial, refusedStart, sink.rejectsTrace)
    ensures outcome.Ok? ==> outcome.value.0 == |sink.traces| - |old(sink.traces)| && outcome.value.1 == |sink.spans| - |old(sink.spans)|
  {
    ghost var t0, s0, n0 := sink.traces, sink.spans, ids.serial;
    var offset := rng.RandInt(0, ThreadSpreadMax);
    var baseTime := anchor + offset as real;
    var tracesCreated, spansCreated := 0, 0;
    slots, durations, scales, traceIds, chunks, refused, refusedSerial, refusedStart := [], [], [], [], [], false, 0, anchor;
    PlacedNone(threadTraces, allSpans, key, anchor, iso, sink.rejectsSpan, sink.traces, sink.spans);
    outcome := Ok((0, 0));
    var idx := 0;
    while idx < |threadTraces|
      invariant 0 <= idx <= |threadTraces|
      invariant |slots| == idx
      invariant Submissions(t0, sink.traces, s0, sink.spans, n0, ids.serial, {key})
      invariant Placed(threadTraces, key, anchor, iso, t0, sink.traces, slots, durations, scales, traceIds)
      invariant SpansLaid(threadTraces, allSpans, iso, sink.rejectsSpan, |t0|, s0, sink.spans, slots, scales, traceIds, chunks)
      invariant 0 <= offset <= ThreadSpreadMax
      invariant idx == 0 ==> baseTime == anchor + offset as real
      invariant idx > 0 ==> baseTime == slots[idx - 1].end
      invariant tracesCreated == idx && spansCreated == |sink.spans| - |s0|
      invariant outcome.Ok? && !refused
    {
      var trace := threadTraces[idx];
      if "id" !in trace {
        outcome := Err(KeyError("id"));
        break;
      }
      var scale := ComputeScaleFactor(trace, iso);
      if scale.Err? {
        outcome := Err(scale.fault);
        break;
      }
      var desired := DesiredSeconds(trace);
      if desired.Err? {
        outcome := Err(desired.fault);
        break;
      }
      if idx > 0 {
        var delay := rng.RandInt(GapMin, GapMax);
        baseTime := baseTime + delay as real;
      }
      var start := baseTime;
      var end := start + desired.value;
      baseTime := end;

      var ok, created, newId, chunk := ReplayPlaced(trace, threadTraces, allSpans, key, anchor, iso, ids, sink, start, end,
                                                    desired.value, scale.value, t0, s0, n0, slots, durations, scales, traceIds, chunks);
      if !ok {
        refused, refusedSerial, refusedStart := true, newId.serial, start;
        outcome := Err(SinkError);
        break;
      }
      tracesCreated, spansCreated := tracesCreated + 1, spansCreated + created;
      chunks := chunks + [chunk];
      slots, durations, scales, traceIds := slots + [Slot(start, end)], durations + [desired.value], scales + [scale.value], traceIds + [newId];
      idx := idx + 1;
    }
    if outcome.Ok? {
      outcome := Ok((tracesCreated, spansCreated));
    }
  }

  /**
   * End to end within one thread: of two traces with different original
   * starts, the earlier one is replayed first and ends before the later one
   * starts (when durations are non-negative).
   */
  lemma ThreadChronology(sorted: seq<Record>, iso: IsoParser, slots: seq<Slot>, anchor: real, durations: seq<real>,
                         i: int, j: int)
    requires SortedByStart(sorted, iso)
    requires WellLaidOut(slots, anchor, durations) && |slots| <= |sorted|
    requires forall k :: 0 <= k < |durations| ==> durations[k] >= 0.0
    requires 0 <= i < |slots| && 0 <= j < |slots|
    requires StartKey(sorted[i], iso) < StartKey(sorted[j], iso)
    ensures i < j && slots[i].end < slots[j].start
  {
    if j <= i {
      SortedByStartPairs(sorted, iso, j, i);
    }
    LayoutNeverOverlaps(slots, anchor, durations, i, j);
  }

  /**
   * Of two placed traces with different original starts, the earlier one
   * was replayed first and ends before the later one starts.
   */
  ghost predicate Chronological(sorted: seq<Record>, iso: IsoParser, slots: seq<Slot>)
    requires |slots| <= |sorted|
  {
    forall i, j :: 0 <= i < |slots| && 0 <= j < |slots| && StartKey(sorted[i], iso) < StartKey(sorted[j], iso) ==>
      i < j && slots[i].end < slots[j].start
  }

  /**
   * A thread's traces put in order of original start (stably), then
   * replayed: the sink gains the sorted traces and their spans as far as the
   * replay got, so with non-negative durations the thread's traces appear in
   * chronological order without overlapping.
   */
  method SortAndReplayThread(group: seq<Record>, allSpans: seq<Record>, key: Value, anchor: real,
                             iso: IsoParser, rng: RandomSource, ids: IdSource, sink: Sink)
    returns (outcome: Result<(nat, nat)>, ghost slots: seq<Slot>, ghost durations: seq<real>, ghost scales: seq<real>,
             ghost traceIds: seq<Value>, ghost chunks: seq<seq<SpanCall>>)
    modifies rng, ids, sink
    ensures Submissions(old(sink.traces), sink.traces, old(sink.spans), sink.spans, old(ids.serial), ids.serial, {key})
    ensures Placed(SortByStart(group, iso), key, anchor, iso, old(sink.traces), sink.traces, slots, durations, scales, traceIds)
    ensures SpansLaid(SortByStart(group, iso), allSpans, iso, sink.rejectsSpan, |old(sink.traces)|, old(sink.spans), sink.spans,
                      slots, scales, traceIds, chunks)
    ensures (forall k :: 0 <= k < |durations| ==> durations[k] >= 0.0) ==> Chronological(SortByStart(group, iso), iso, slots)
    ensures outcome.Ok? ==> |slots| == |group|
    ensures outcome.Err? ==> |slots| < |group| && TraceFault(SortByStart(group, iso)[|slots|], iso, key, sink.rejectsTrace, outcome.fault)
    ensures outcome.Ok? ==> outcome.value.0 == |sink.traces| - |old(sink.traces)| && outcome.value.1 == |sink.spans| - |old(sink.spans)|
  {
    var threadTraces := SortByStart(group, iso);
    ghost var refused, refusedSerial, refusedStart;
    outcome, slots, durations, scales, traceIds, chunks, refused, refusedSerial, refusedStart :=
      ReplayThread(threadTraces, allSpans, key, anchor, iso, rng, ids, sink);
    if forall k :: 0 <= k < |durations| ==> durations[k] >= 0.0 {
      forall i, j | 0 <= i < |slots| && 0 <= j < |slots| && StartKey(threadTraces[i], iso) < StartKey(threadTraces[j], iso)
        ensures i < j && slots[i].end < slots[j].start
      {
        ThreadChronology(threadTraces, iso, slots, anchor, durations, i, j);
      }
    }
  }

  /** The threads assigned to a day (`threads_per_day.get(day_offset, [])`). */
  function ThreadsForDay(threadsPerDay: map<int, seq<Value>>, day: int): seq<Value>
  {
    if day in threadsPerDay then threadsPerDay[day] else []
  }

  /** The synthetic keys of a day's threads. */
  function DayKeys(keyMap: map<(Value, int), Value>, day: int, threads: seq<Value>): set<Value>
  {
    if threads == [] then {}
    else
      var last := threads[|threads| - 1];
      DayKeys(keyMap, day, threads[..|threads| - 1]) + (if (last, day) in keyMap then {keyMap[(last, day)]} else {})
  }

  /** The key of every assigned thread that has one is among the day's keys. */
  lemma {:induction false} DayKeysHas(keyMap: map<(Value, int), Value>, day: int, threads: seq<Value>, i: int)
    requires 0 <= i < |threads| && (threads[i], day) in keyMap
    ensures keyMap[(threads[i], day)] in DayKeys(keyMap, day, threads)
    decreases |threads|
  {
    if i < |threads| - 1 {
      DayKeysHas(keyMap, day, threads[..|threads| - 1], i);
    }
  }

  /** The day's keys are keys of the run. */
  lemma {:induction false} DayKeysAreKeys(keyMap: map<(Value, int), Value>, day: int, threads: seq<Value>)
    ensures DayKeys(keyMap, day, threads) <= keyMap.Values
    decreases |threads|
  {
    if threads != [] {
      DayKeysAreKeys(keyMap, day, threads[..|threads| - 1]);
    }
  }

  /**
   * Whether upload_traces_for_day replays thread t on day `day`: t must be
   * truthy and have traces in the corpus, and its synthetic key for the day
   * must exist and be truthy; any other assigned thread is skipped.
   */
  predicate Replayed(traces: seq<Record>, t: Value, keyMap: map<(Value, int), Value>, day: int)
  {
    Truthy(t) && ThreadTraces(traces, t) != [] && (t, day) in keyMap && Truthy(keyMap[(t, day)])
  }

  /**
   * The number of traces a day submits when it completes: every trace of
   * every replayed thread, once per time the thread is assigned.
   */
  function DayTraceCount(traces: seq<Record>, threads: seq<Value>, keyMap: map<(Value, int), Value>, day: int): nat
  {
    if threads == [] then 0
    else
      var last := threads[|threads| - 1];
      DayTraceCount(traces, threads[..|threads| - 1], keyMap, day)
      + (if Replayed(traces, last, keyMap, day) then |ThreadTraces(traces, last)| else 0)
  }

  lemma DayTraceCountSnoc(traces: seq<Record>, threads: seq<Value>, keyMap: map<(Value, int), Value>, day: int, i: int)
    requires 0 <= i < |threads|
    ensures DayTraceCount(traces, threads[..i + 1], keyMap, day)
            == DayTraceCount(traces, threads[..i], keyMap, day)
               + (if Replayed(traces, threads[i], keyMap, day) then |ThreadTraces(traces, threads[i])| else 0)
  {
    assert threads[..i + 1][..i] == threads[..i];
  }

  /**
   * Thread t, replayed on day `day`, has a trace (in its sorted order) whose
   * replay raises `fault`.
   */
  ghost predicate ThreadFault(traces: seq<Record>, t: Value, keyMap: map<(Value, int), Value>, day: int, iso: IsoParser,
                              rejects: Record -> bool, fault: Fault)
  {
    && Replayed(traces, t, keyMap, day)
    && exists k :: 0 <= k < |ThreadTraces(traces, t)|
         && TraceFault(SortByStart(ThreadTraces(traces, t), iso)[k], iso, keyMap[(t, day)], rejects, fault)
  }

  /** One of the day's replayed threads has a trace whose replay raises `fault`. */
  ghost predicate DayFault(traces: seq<Record>, threads: seq<Value>, keyMap: map<(Value, int), Value>, day: int,
                           iso: IsoParser, rejects: Record -> bool, fault: Fault)
  {
    exists i :: 0 <= i < |threads| && ThreadFault(traces, threads[i], keyMap, day, iso, rejects, fault)
  }

  /**
   * One step of the day's thread loop: thread i is replayed, under its
   * synthetic key, when it has traces and a truthy key for the day, and is
   * skipped otherwise.
   */
  method ReplayDayThread(traces: seq<Record>, spans: seq<Record>, dayOffset: int, threadsForDay: seq<Value>, i: int,
                         groups: map<Value, seq<Record>>, keyMap: map<(Value, int), Value>, anchor: real, iso: IsoParser,
                         rng: RandomSource, ids: IdSource, sink: Sink,
                         ghost t0: seq<Record>, ghost s0: seq<SpanCall>, ghost n0: nat, ghost keys: set<Value>)
    returns (outcome: Result<(nat, nat)>)
    requires 0 <= i < |threadsForDay| && keys == DayKeys(keyMap, dayOffset, threadsForDay)
    requires forall t :: t in groups <==> Truthy(t) && t in threadsForDay && ThreadTraces(traces, t) != []
    requires forall t :: t in groups ==> groups[t] == ThreadTraces(traces, t)
    requires Submissions(t0, sink.traces, s0, sink.spans, n0, ids.serial, keys)
    modifies rng, ids, sink
    ensures Submissions(t0, sink.traces, s0, sink.spans, n0, ids.serial, keys)
    ensures outcome.Ok? ==> outcome.value.0 == |sink.traces| - |old(sink.traces)| && outcome.value.1 == |sink.spans| - |old(sink.spans)|
    ensures outcome.Ok? ==> outcome.value.0 == if Replayed(traces, threadsForDay[i], keyMap, dayOffset)
                                               then |ThreadTraces(traces, threadsForDay[i])| else 0
    ensures outcome.Err? ==> ThreadFault(traces, threadsForDay[i], keyMap, dayOffset, iso, sink.rejectsTrace, outcome.fault)
  {
    var threadId := threadsForDay[i];
    if threadId in groups && (threadId, dayOffset) in keyMap && Truthy(keyMap[(threadId, dayOffset)]) {
      var newThreadId := keyMap[(threadId, dayOffset)];
      DayKeysHas(keyMap, dayOffset, threadsForDay, i);
      ghost var tracesBefore, spansBefore, serialBefore := sink.traces, sink.spans, ids.serial;
      ghost var slots, durations, scales, traceIds, chunks;
      outcome, slots, durations, scales, traceIds, chunks :=
        SortAndReplayThread(groups[threadId], spans, newThreadId, anchor, iso, rng, ids, sink);
      SubmissionsChain(t0, tracesBefore, sink.traces, s0, spansBefore, sink.spans,
                       n0, serialBefore, ids.serial, keys, {newThreadId});
      if outcome.Err? {
        assert ThreadFault(traces, threadId, keyMap, dayOffset, iso, sink.rejectsTrace, outcome.fault);
      }
    } else {
      outcome := Ok((0, 0));
    }
  }

  /**
   * The body of upload_traces_for_day once the day has threads: group the
   * corpus by the day's threads, then replay, in the day's order, each thread
   * that has traces and a truthy synthetic key for the day.
   */
  method ReplayAssignedThreads(traces: seq<Record>, spans: seq<Record>, dayOffset: int, threadsForDay: seq<Value>,
                               keyMap: map<(Value, int), Value>, anchor: real, iso: IsoParser,
                               rng: RandomSource, ids: IdSource, sink: Sink)
    returns (outcome: Result<(nat, nat)>)
    modifies rng, ids, sink
    ensures Submissions(old(sink.traces), sink.traces, old(sink.spans), sink.spans, old(ids.serial), ids.serial, DayKeys(keyMap, dayOffset, threadsForDay))
    ensures outcome.Ok? ==> outcome.value.0 == |sink.traces| - |old(sink.traces)| && outcome.value.1 == |sink.spans| - |old(sink.spans)|
    ensures outcome.Ok? ==> outcome.value.0 == DayTraceCount(traces, threadsForDay, keyMap, dayOffset)
    ensures outcome.Err? ==> DayFault(traces, threadsForDay, keyMap, dayOffset, iso, sink.rejectsTrace, outcome.fault)
  {
    ghost var t0, s0, n0 := sink.traces, sink.spans, ids.serial;
    ghost var keys := DayKeys(keyMap, dayOffset, threadsForDay);
    var groups := GroupByThread(traces, threadsForDay);

    var tracesCreated, spansCreated := 0, 0;
    outcome := Ok((0, 0));
    var i := 0;
    while i < |threadsForDay|
      invariant 0 <= i <= |threadsForDay|
      invariant Submissions(t0, sink.traces, s0, sink.spans, n0, ids.serial, keys)
      invariant tracesCreated == |sink.traces| - |t0| && spansCreated == |sink.spans| - |s0|
      invariant tracesCreated == DayTraceCount(traces, threadsForDay[..i], keyMap, dayOffset)
      invariant outcome.Ok?
    {
      DayTraceCountSnoc(traces, threadsForDay, keyMap, dayOffset, i);
      var result := ReplayDayThread(traces, spans, dayOffset, threadsForDay, i, groups, keyMap, anchor, iso,
                                    rng, ids, sink, t0, s0, n0, keys);
      if result.Err? {
        outcome := Err(result.fault);
        break;
      }
      tracesCreated, spansCreated := tracesCreated + result.value.0, spansCreated + result.value.1;
      i := i + 1;
    }
    if outcome.Ok? {
      assert threadsForDay[..i] == threadsForDay;
      outcome := Ok((tracesCreated, spansCreated));
    }
  }

  /**
   * The day's anchor: a random time of day between 09:00:00 and 17:59:59 on
   * the UTC calendar day `dayOffset` days before now (three draws).
   */
  method DrawDayAnchor(now: real, dayOffset: int, rng: RandomSource) returns (anchor: real)
    modifies rng
    ensures Midnight(DayStart(now, dayOffset)) + 32400.0 <= anchor <= Midnight(DayStart(now, dayOffset)) + 64799.0
    ensures Midnight(anchor) == Midnight(DayStart(now, dayOffset))
    ensures rng.drawn == old(rng.drawn) + 3
  {
    var hour := rng.RandInt(9, 17);
    var minute := rng.RandInt(0, 59);
    var second := rng.RandInt(0, 59);
    anchor := DayAnchor(DayStart(now, dayOffset), hour, minute, second);
  }

  /**
   * upload_traces_for_day. Draws the day's anchor; a day without threads
   * submits nothing and reports (0, 0); otherwise each assigned thread that
   * has traces and a synthetic key is replayed, and the first raise ends the
   * day with what was submitted so far left in place.
   */
  method UploadTracesForDay(traces: seq<Record>, spans: seq<Record>, dayOffset: int,
                            threadsPerDay: map<int, seq<Value>>, keyMap: map<(Value, int), Value>,
                            now: real, iso: IsoParser, rng: RandomSource, ids: IdSource, sink: Sink)
    returns (outcome: Result<(nat, nat)>)
    modifies rng, ids, sink
    ensures ThreadsForDay(threadsPerDay, dayOffset) == [] ==>
              outcome == Ok((0, 0)) && sink.traces == old(sink.traces) && sink.spans == old(sink.spans)
    ensures Submissions(old(sink.traces), sink.traces, old(sink.spans), sink.spans, old(ids.serial), ids.serial, DayKeys(keyMap, dayOffset, ThreadsForDay(threadsPerDay, dayOffset)))
    ensures outcome.Ok? ==> outcome.value.0 == |sink.traces| - |old(sink.traces)| && outcome.value.1 == |sink.spans| - |old(sink.spans)|
    ensures outcome.Ok? ==> outcome.value.0 == DayTraceCount(traces, ThreadsForDay(threadsPerDay, dayOffset), keyMap, dayOffset)
    ensures outcome.Err? ==> DayFault(traces, ThreadsForDay(threadsPerDay, dayOffset), keyMap, dayOffset, iso, sink.rejectsTrace, outcome.fault)
  {
    var day := DrawDayAnchor(now, dayOffset, rng);
    var threadsForDay := ThreadsForDay(threadsPerDay, dayOffset);
    if threadsForDay == [] {
      outcome := Ok((0, 0));
      SubmissionsNone(sink.traces, sink.spans, ids.serial, ids.serial, DayKeys(keyMap, dayOffset, threadsForDay));
    } else {
      outcome := ReplayAssignedThreads(traces, spans, dayOffset, threadsForDay, keyMap, day, iso, rng, ids, sink);
    }
  }
}

=== FILE: findings.dfy ===
/**
 * The thread sort key as written. Elsewhere the replay reads a naive
 * timestamp as UTC before using it (compute_scale_factor, the span offset
 * rewrite), but the sort key of upload_traces_for_day does not: it keeps the
 * parsed value as it is, and falls back to an offset-aware datetime.min.
 * Python refuses to order a naive datetime against an aware one, so a thread
 * that mixes the two raises and ends the day.
 */
module Findings {
  import opened Values
  import opened Ordering

  /** The key as written: the parsed start with its awareness, or aware datetime.min. */
  function AsWrittenKey(trace: Record, iso: IsoParser): (k: DateTime)
    ensures k.secs == StartKey(trace, iso)
    ensures ParseDatetime(Get(trace, "start_time"), iso).None? ==> k.aware
  {
    match ParseDatetime(Get(trace, "start_time"), iso)
    case Some(d) => d
    case None => DateTime(MinInstant, true)
  }

  /** Two keys of the thread that Python cannot compare. */
  predicate MixedAwareness(s: seq<Record>, iso: IsoParser)
  {
    exists i, j :: 0 <= i < |s| && 0 <= j < |s| && AsWrittenKey(s[i], iso).aware != AsWrittenKey(s[j], iso).aware
  }

  /**
   * `thread_traces.sort(key=...)` as written. Sorting must relate every
   * element to the others, so when both kinds of key occur some naive key is
   * compared with some aware one and the sort raises TypeError; otherwise all
   * keys are of one kind and order exactly as the corrected key does.
   */
  function AsWrittenSort(s: seq<Record>, iso: IsoParser): (r: Result<seq<Record>>)
    ensures r.Err? <==> MixedAwareness(s, iso)
    ensures r.Err? ==> |s| >= 2 && r.fault.TypeError?
    ensures r.Ok? ==> multiset(r.value) == multiset(s) && SortedByStart(r.value, iso)
  {
    if MixedAwareness(s, iso) then
      Err(TypeError("can't compare offset-naive and offset-aware datetimes"))
    else
      Ok(SortByStart(s, iso))
  }

  /**
   * When every key of a thread has the same awareness, comparing keys as
   * written agrees with comparing the corrected (UTC) keys, in both
   * directions.
   */
  lemma UniformKeysOrderAsCorrected(a: Record, b: Record, iso: IsoParser)
    requires AsWrittenKey(a, iso).aware == AsWrittenKey(b, iso).aware
    ensures AsWrittenKey(a, iso).secs < AsWrittenKey(b, iso).secs <==> StartKey(a, iso) < StartKey(b, iso)
  {
  }

  /**
   * The discrepancy: a thread with one naive start and one missing start.
   * As written the sort raises, so the whole day is lost; the corrected key
   * puts the trace without a start first.
   */
  lemma NaiveAndMissingStartRaise(iso: IsoParser)
    requires iso("2024-01-01T09:00:00") == Some(DateTime(1704099600.0, false))
    ensures var naive: Record := map["start_time" := Text("2024-01-01T09:00:00")];
            var missing: Record := map[];
            AsWrittenSort([naive, missing], iso).Err?
            && SortByStart([naive, missing], iso) == [missing, naive]
  {
    var naive: Record := map["start_time" := Text("2024-01-01T09:00:00")];
    var missing: Record := map[];
    assert AsWrittenKey([naive, missing][0], iso).aware != AsWrittenKey([naive, missing][1], iso).aware;
    assert StartKey(missing, iso) < StartKey(naive, iso);
    assert [naive, missing][..1] == [naive];
    assert SortByStart([naive], iso) == [naive] by {
      assert [naive][..0] == [];
    }
  }
}

=== FILE: layout.dfy ===
/**
 * Per-thread layout on a synthetic day: the day's anchor, the thread's
 * starting offset, and the back-to-back windows of its traces.
 */
module Layout {

  const SecondsPerDay: int := 86400
  /** A thread starts 0 to 4 hours after the day's anchor. */
  const ThreadSpreadMax: int := 14400
  /** Consecutive traces of a thread are 30 s to 3 min apart. */
  const GapMin: int := 30
  const GapMax: int := 180

  /** "now minus dayOffset days". */
  function DayStart(now: real, dayOffset: int): real
  {
    now - (dayOffset * SecondsPerDay) as real
  }

  /** The UTC midnight that begins the calendar day containing t. */
  function Midnight(t: real): real
  {
    ((t / 86400.0).Floor * 86400) as real
  }

  lemma FloorOfShift(n: int, f: real)
    requires 0.0 <= f < 1.0
    ensures (n as real + f).Floor == n
  {
  }

  /**
   * `day_start.replace(hour=h, minute=m, second=s, microsecond=0)`: the anchor
   * lies on the same UTC calendar day, between 09:00:00 and 17:59:59.
   */
  function DayAnchor(dayStart: real, hour: int, minute: int, second: int): (a: real)
    requires 9 <= hour <= 17 && 0 <= minute <= 59 && 0 <= second <= 59
    ensures Midnight(dayStart) + 32400.0 <= a <= Midnight(dayStart) + 64799.0
    ensures Midnight(a) == Midnight(dayStart)
  {
    var n := (dayStart / 86400.0).Floor;
    var tod := (hour * 3600 + minute * 60 + second) as real;
    var a := Midnight(dayStart) + tod;
    assert a / 86400.0 == n as real + tod / 86400.0;
    FloorOfShift(n, tod / 86400.0);
    a
  }

  /** A trace's new window. */
  datatype Slot = Slot(start: real, end: real)

  /**
   * The layout of one thread: the first trace starts 0 to 14400 s after the
   * anchor, each trace lasts exactly its desired duration, and each later
   * trace starts 30 to 180 s after the previous one ends.
   */
  ghost predicate WellLaidOut(slots: seq<Slot>, anchor: real, durations: seq<real>)
  {
    && |slots| == |durations|
    && (|slots| > 0 ==> anchor <= slots[0].start <= anchor + ThreadSpreadMax as real)
    && (forall i :: 0 <= i < |slots| ==> slots[i].end == slots[i].start + durations[i])
    && (forall i :: 0 < i < |slots| ==> GapMin as real <= slots[i].start - slots[i - 1].end <= GapMax as real)
  }

  /** Placing one more trace after the last keeps the layout well formed. */
  lemma WellLaidOutSnoc(slots: seq<Slot>, anchor: real, durations: seq<real>, s: Slot, d: real)
    requires WellLaidOut(slots, anchor, durations)
    requires s.end == s.start + d
    requires |slots| == 0 ==> anchor <= s.start <= anchor + ThreadSpreadMax as real
    requires |slots| > 0 ==> GapMin as real <= s.start - slots[|slots| - 1].end <= GapMax as real
    ensures WellLaidOut(slots + [s], anchor, durations + [d])
  {
  }

  /**
   * No overlap, no time travel: with non-negative durations every trace of
   * the thread ends at least 30 s before any later trace starts, so new start
   * times strictly increase along the thread.
   */
  lemma {:induction false} LayoutNeverOverlaps(slots: seq<Slot>, anchor: real, durations: seq<real>, i: int, j: int)
    requires WellLaidOut(slots, anchor, durations)
    requires forall k :: 0 <= k < |durations| ==> durations[k] >= 0.0
    requires 0 <= i < j < |slots|
    ensures slots[i].end + GapMin as real <= slots[j].start
    ensures slots[i].start < slots[j].start
    decreases j - i
  {
    if i + 1 < j {
      LayoutNeverOverlaps(slots, anchor, durations, i + 1, j);
    }
  }

  /**
   * Without the non-negativity of durations only neighbours are kept apart:
   * a negative duration ends a trace before it starts, and the next trace can
   * then start before the previous one did.
   */
  lemma NegativeDurationTimeTravel(anchor: real)
    ensures var durations := [-1000.0, 1.0];
            var slots := [Slot(anchor, anchor - 1000.0), Slot(anchor - 970.0, anchor - 969.0)];
            WellLaidOut(slots, anchor, durations) && slots[1].start < slots[0].start
  {
  }
}

=== FILE: oracles.dfy ===
/**
 * The replay's collaborators, injected as objects: the random module, the
 * identifier generators and the ingestion sink.
 */
module Oracles {
  import opened Values

  predicate Distinct<T(==)>(s: seq<T>)
  {
    forall i, j :: 0 <= i < j < |s| ==> s[i] != s[j]
  }

  /** Whatever is drawn without reuse comes from the population. */
  lemma SubMultisetMembers<T>(picked: seq<T>, population: seq<T>)
    requires multiset(picked) <= multiset(population)
    ensures forall t :: t in picked ==> t in population
  {
    forall t | t in picked
      ensures t in population
    {
      assert t in multiset(picked);
    }
  }

  /** A sequence drawn from a duplicate-free one without reuse is duplicate-free. */
  lemma DistinctSubMultiset<T>(picked: seq<T>, population: seq<T>)
    requires multiset(picked) <= multiset(population)
    requires Distinct(population)
    ensures Distinct(picked)
  {
    forall i, j | 0 <= i < j < |picked| ensures picked[i] != picked[j] {
      if picked[i] == picked[j] {
        RepeatCounted(picked, i, j);
        MultiplicityAtMostOne(population, picked[i]);
        assert false;
      }
    }
  }

  /** An element occurring at two positions is counted at least twice. */
  lemma RepeatCounted<T>(s: seq<T>, i: int, j: int)
    requires 0 <= i < j < |s| && s[i] == s[j]
    ensures multiset(s)[s[i]] >= 2
  {
    var x := s[i];
    assert s == s[..i] + [x] + s[i + 1..j] + [x] + s[j + 1..];
  }

  lemma {:induction false} MultiplicityAtMostOne<T>(s: seq<T>, x: T)
    requires Distinct(s)
    ensures multiset(s)[x] <= 1
  {
    if s != [] {
      assert s == [s[0]] + s[1..];
      assert Distinct(s[1..]);
      MultiplicityAtMostOne(s[1..], x);
      if s[0] == x {
        assert x !in s[1..];
      }
    }
  }

  /**
   * The `random` module's hidden generator: a stream of raw draws (a seeded
   * generator) and the number consumed so far.
   */
  class RandomSource {
    const raw: nat -> nat
    var drawn: nat

    constructor (raw: nat -> nat)
      ensures this.raw == raw && drawn == 0
    {
      this.raw := raw;
      drawn := 0;
    }

    /** random.randint(lo, hi): a value in the closed range, consuming one draw. */
    method RandInt(lo: int, hi: int) returns (r: int)
      requires lo <= hi
      modifies this
      ensures lo <= r <= hi
      ensures r == lo + raw(old(drawn)) % (hi - lo + 1)
      ensures drawn == old(drawn) + 1
    {
      r := lo + raw(drawn) % (hi - lo + 1);
      drawn := drawn + 1;
    }

    /**
     * random.sample(population, k): k elements taken at distinct positions of
     * the population, so the sample holds no element more often than the
     * population does.
     */
    method Sample(population: seq<Value>, k: nat) returns (picked: seq<Value>)
      requires k <= |population|
      modifies this
      ensures |picked| == k
      ensures multiset(picked) <= multiset(population)
      ensures drawn == old(drawn) + k
    {
      picked := [];
      var pool := population;
      while |picked| < k
        invariant |picked| <= k
        invariant |picked| + |pool| == |population|
        invariant multiset(picked) + multiset(pool) == multiset(population)
        invariant drawn == old(drawn) + |picked|
      {
        var j := RandInt(0, |pool| - 1);
        assert pool == pool[..j] + [pool[j]] + pool[j + 1..];
        picked := picked + [pool[j]];
        pool := pool[..j] + pool[j + 1..];
      }
    }
  }

  /**
   * The identifier generators: id_helpers.generate_id(timestamp=...) and
   * uuid4. Every call returns a value never returned before; the textual
   * time-sortable encoding is not modelled, only the timestamp it was given.
   */
  class IdSource {
    var serial: nat

    constructor ()
      ensures serial == 0
    {
      serial := 0;
    }

    method GenerateId(at: real) returns (id: Value)
      modifies this
      ensures id == Minted(old(serial), Some(at))
      ensures serial == old(serial) + 1
    {
      id := Minted(serial, Some(at));
      serial := serial + 1;
    }

    method Uuid4() returns (id: Value)
      modifies this
      ensures id == Minted(old(serial), None)
      ensures serial == old(serial) + 1
    {
      id := Minted(serial, None);
      serial := serial + 1;
    }
  }

  /** A span creation: the handle of the trace it was created under, and its fields. */
  datatype SpanCall = SpanCall(trace: nat, record: Record)

  /**
   * The ingestion client: it records every accepted submission, and refuses
   * (raises on) the records its two predicates reject.
   */
  class Sink {
    const rejectsTrace: Record -> bool
    const rejectsSpan: Record -> bool
    var traces: seq<Record>
    var spans: seq<SpanCall>

    constructor (rejectsTrace: Record -> bool, rejectsSpan: Record -> bool)
      ensures this.rejectsTrace == rejectsTrace && this.rejectsSpan == rejectsSpan
      ensures traces == [] && spans == []
    {
      this.rejectsTrace := rejectsTrace;
      this.rejectsSpan := rejectsSpan;
      traces := [];
      spans := [];
    }

    /** client.trace(**fields): the handle of an accepted trace is its position. */
    method CreateTrace(r: Record) returns (ok: bool, handle: nat)
      modifies this
      ensures ok == !rejectsTrace(r)
      ensures traces == if ok then old(traces) + [r] else old(traces)
      ensures ok ==> handle == |old(traces)|
      ensures spans == old(spans)
    {
      ok := !rejectsTrace(r);
      handle := |traces|;
      if ok {
        traces := traces + [r];
      }
    }

    /** trace_obj.span(**fields). */
    method CreateSpan(handle: nat, r: Record) returns (ok: bool)
      requires handle < |traces|
      modifies this
      ensures ok == !rejectsSpan(r)
      ensures spans == if ok then old(spans) + [SpanCall(handle, r)] else old(spans)
      ensures traces == old(traces)
    {
      ok := !rejectsSpan(r);
      if ok {
        spans := spans + [SpanCall(handle, r)];
      }
    }
  }
}

=== FILE: orchestrator.dfy ===
/**
 * The run as a whole (main): the corpus's threads, the 30-day schedule with
 * its per-day synthetic thread keys, and the fault-isolated day loop.
 */
module Orchestrator {
  import opened Values
  import opened Oracles
  import opened Rewrite
  import opened SinkLog
  import opened DayReplay
  import opened Accounting

  /** The synthetic month: days 1 to 30 before now. */
  const Days: int := 30

  function Min(a: int, b: int): int
  {
    if a <= b then a else b
  }

  /**
   * The keys of main's traces_by_thread, in insertion order: every truthy
   * thread id of the corpus, once each.
   */
  method UniqueThreads(traces: seq<Record>) returns (order: seq<Value>)
    ensures Distinct(order)
    ensures forall t :: t in order <==> Truthy(t) && exists x :: x in traces && SafeThreadId(x) == t
  {
    order := [];
    var i := 0;
    while i < |traces|
      invariant 0 <= i <= |traces|
      invariant Distinct(order)
      invariant forall t :: t in order <==> Truthy(t) && exists x :: x in traces[..i] && SafeThreadId(x) == t
    {
      var threadId := SafeThreadId(traces[i]);
      assert traces[..i + 1] == traces[..i] + [traces[i]];
      if Truthy(threadId) && threadId !in order {
        order := order + [threadId];
      }
      i := i + 1;
    }
    assert traces[..i] == traces;
  }

  /** Every synthetic key handed out is distinct from every other. */
  ghost predicate KeysInjective(keyMap: map<(Value, int), Value>)
  {
    forall p, q :: p in keyMap && q in keyMap && keyMap[p] == keyMap[q] ==> p == q
  }

  /**
   * The schedule of main: for each day 1..30 a sample of min(3,n) to min(7,n)
   * of the corpus's threads, and a fresh key for every sampled (thread, day)
   * pair, so one thread sampled on two days gets two different keys.
   */
  method ScheduleThreads(unique: seq<Value>, rng: RandomSource, ids: IdSource)
    returns (threadsPerDay: map<int, seq<Value>>, keyMap: map<(Value, int), Value>)
    modifies rng, ids
    ensures forall d :: d in threadsPerDay <==> 1 <= d <= Days
    ensures forall d :: d in threadsPerDay ==>
              Min(3, |unique|) <= |threadsPerDay[d]| <= Min(7, |unique|)
              && multiset(threadsPerDay[d]) <= multiset(unique)
              && (Distinct(unique) ==> Distinct(threadsPerDay[d]))
    ensures forall d, t :: d in threadsPerDay && t in threadsPerDay[d] ==> (t, d) in keyMap
    ensures forall p :: p in keyMap ==> p.1 in threadsPerDay && p.0 in threadsPerDay[p.1]
    ensures KeysInjective(keyMap)
    ensures forall p :: p in keyMap ==> MintedIn(keyMap[p], old(ids.serial), ids.serial)
    ensures old(ids.serial) <= ids.serial
  {
    ghost var n0 := ids.serial;
    threadsPerDay, keyMap := map[], map[];
    var day := 1;
    while day <= Days
      invariant 1 <= day <= Days + 1
      invariant forall d :: d in threadsPerDay <==> 1 <= d < day
      invariant forall d :: d in threadsPerDay ==>
                  Min(3, |unique|) <= |threadsPerDay[d]| <= Min(7, |unique|)
                  && multiset(threadsPerDay[d]) <= multiset(unique)
                  && (Distinct(unique) ==> Distinct(threadsPerDay[d]))
      invariant forall d, t :: d in threadsPerDay && t in threadsPerDay[d] ==> (t, d) in keyMap
      invariant forall p :: p in keyMap ==> p.1 in threadsPerDay && p.0 in threadsPerDay[p.1]
      invariant KeysInjective(keyMap)
      invariant forall p :: p in keyMap ==> MintedIn(keyMap[p], n0, ids.serial)
      invariant n0 <= ids.serial
    {
      var sampleSize := rng.RandInt(Min(3, |unique|), Min(7, |unique|));
      var sampled := rng.Sample(unique, sampleSize);
      if Distinct(unique) {
        DistinctSubMultiset(sampled, unique);
      }
      threadsPerDay := threadsPerDay[day := sampled];
      var j := 0;
      while j < |sampled|
        invariant 0 <= j <= |sampled|
        invariant forall t :: t in sampled[..j] ==> (t, day) in keyMap
        invariant forall d, t :: d in threadsPerDay && d != day && t in threadsPerDay[d] ==> (t, d) in keyMap
        invariant forall p :: p in keyMap ==> p.1 in threadsPerDay && p.0 in threadsPerDay[p.1]
        invariant KeysInjective(keyMap)
        invariant forall p :: p in keyMap ==> MintedIn(keyMap[p], n0, ids.serial)
        invariant n0 <= ids.serial
      {
        var key := (sampled[j], day);
        assert sampled[..j + 1] == sampled[..j] + [sampled[j]];
        if key !in keyMap {
          var threadKey := ids.Uuid4();
          keyMap := keyMap[key := threadKey];
        }
        j := j + 1;
      }
      assert sampled[..j] == sampled;
      day := day + 1;
    }
  }

  /**
   * What day `day` reported: a day without threads returned (0, 0), a
   * day that completed reported as its trace count every trace of the
   * threads it replayed, and a day that raised did so for a trace of one of
   * the threads it replayed.
   */
  ghost predicate DayReported(outcome: Result<(nat, nat)>, traces: seq<Record>,
                              threadsPerDay: map<int, seq<Value>>, keyMap: map<(Value, int), Value>, day: int,
                              iso: IsoParser, rejects: Record -> bool)
  {
    && (ThreadsForDay(threadsPerDay, day) == [] ==> outcome.Ok? && outcome.value.0 == 0 && outcome.value.1 == 0)
    && (outcome.Ok? ==> outcome.value.0 == DayTraceCount(traces, ThreadsForDay(threadsPerDay, day), keyMap, day))
    && (outcome.Err? ==> DayFault(traces, ThreadsForDay(threadsPerDay, day), keyMap, day, iso, rejects, outcome.fault))
  }

  /** What the days 1..|outcomes| reported. */
  ghost predicate DaysReported(outcomes: seq<Result<(nat, nat)>>, traces: seq<Record>,
                               threadsPerDay: map<int, seq<Value>>, keyMap: map<(Value, int), Value>,
                               iso: IsoParser, rejects: Record -> bool)
  {
    forall k :: 0 <= k < |outcomes| ==> DayReported(outcomes[k], traces, threadsPerDay, keyMap, k + 1, iso, rejects)
  }

  lemma DaysReportedStep(outcomes: seq<Result<(nat, nat)>>, traces: seq<Record>,
                         threadsPerDay: map<int, seq<Value>>, keyMap: map<(Value, int), Value>,
                         iso: IsoParser, rejects: Record -> bool, outcome: Result<(nat, nat)>)
    requires DaysReported(outcomes, traces, threadsPerDay, keyMap, iso, rejects)
    requires DayReported(outcome, traces, threadsPerDay, keyMap, |outcomes| + 1, iso, rejects)
    ensures DaysReported(outcomes + [outcome], traces, threadsPerDay, keyMap, iso, rejects)
  {
    assert (outcomes + [outcome])[|outcomes|] == outcome;
  }

  /**
   * One day of the loop in main: upload_traces_for_day, whose traces carry
   * keys of the run's key map.
   */
  method ReplayDay(traces: seq<Record>, spans: seq<Record>, day: int, threadsPerDay: map<int, seq<Value>>,
                   keyMap: map<(Value, int), Value>, now: real, iso: IsoParser,
                   rng: RandomSource, ids: IdSource, sink: Sink)
    returns (outcome: Result<(nat, nat)>)
    modifies rng, ids, sink
    ensures DayReported(outcome, traces, threadsPerDay, keyMap, day, iso, sink.rejectsTrace)
    ensures Submissions(old(sink.traces), sink.traces, old(sink.spans), sink.spans, old(ids.serial), ids.serial, keyMap.Values)
    ensures outcome.Ok? ==> outcome.value.0 == |sink.traces| - |old(sink.traces)| && outcome.value.1 == |sink.spans| - |old(sink.spans)|
  {
    outcome := UploadTracesForDay(traces, spans, day, threadsPerDay, keyMap, now, iso, rng, ids, sink);
    DayKeysAreKeys(keyMap, day, ThreadsForDay(threadsPerDay, day));
    SubmissionsWiden(old(sink.traces), sink.traces, old(sink.spans), sink.spans, old(ids.serial), ids.serial,
                     keyMap.Values, DayKeys(keyMap, day, ThreadsForDay(threadsPerDay, day)));
  }

  /**
   * The day loop of main: every day 1..30 is attempted; a day that raises
   * contributes nothing to the totals and does not stop the later days, and
   * what it submitted before raising stays submitted. Each day reads the
   * clock anew: `clock[i - 1]` is the reading taken by day i.
   */
  method ReplayAllDays(traces: seq<Record>, spans: seq<Record>, threadsPerDay: map<int, seq<Value>>,
                       keyMap: map<(Value, int), Value>, clock: seq<real>, iso: IsoParser,
                       rng: RandomSource, ids: IdSource, sink: Sink)
    returns (totalTraces: nat, totalSpans: nat, ghost outcomes: seq<Result<(nat, nat)>>)
    requires |clock| == Days
    modifies rng, ids, sink
    ensures |outcomes| == Days
    ensures DaysReported(outcomes, traces, threadsPerDay, keyMap, iso, sink.rejectsTrace)
    ensures Submissions(old(sink.traces), sink.traces, old(sink.spans), sink.spans, old(ids.serial), ids.serial, keyMap.Values)
    ensures Tally(outcomes, totalTraces, totalSpans, |sink.traces| - |old(sink.traces)|, |sink.spans| - |old(sink.spans)|)
  {
    ghost var t0, s0, n0 := sink.traces, sink.spans, ids.serial;
    totalTraces, totalSpans := 0, 0;
    outcomes := [];
    var i := 1;
    while i <= Days
      invariant 1 <= i <= Days + 1
      invariant |outcomes| == i - 1
      invariant DaysReported(outcomes, traces, threadsPerDay, keyMap, iso, sink.rejectsTrace)
      invariant Submissions(t0, sink.traces, s0, sink.spans, n0, ids.serial, keyMap.Values)
      invariant Tally(outcomes, totalTraces, totalSpans, |sink.traces| - |t0|, |sink.spans| - |s0|)
    {
      ghost var tracesBefore, spansBefore, serialBefore := sink.traces, sink.spans, ids.serial;
      ghost var tracesTotal, spansTotal := totalTraces, totalSpans;
      var outcome := ReplayDay(traces, spans, i, threadsPerDay, keyMap, clock[i - 1], iso, rng, ids, sink);
      SubmissionsChain(t0, tracesBefore, sink.traces, s0, spansBefore, sink.spans,
                       n0, serialBefore, ids.serial, keyMap.Values, keyMap.Values);
      if outcome.Ok? {
        totalTraces, totalSpans := totalTraces + outcome.value.0, totalSpans + outcome.value.1;
      }
      DaysReportedStep(outcomes, traces, threadsPerDay, keyMap, iso, sink.rejectsTrace, outcome);
      TallyStep(outcomes, tracesTotal, spansTotal, |tracesBefore| - |t0|, |spansBefore| - |s0|,
                outcome, totalTraces, totalSpans, |sink.traces| - |t0|, |sink.spans| - |s0|);
      outcomes := outcomes + [outcome];
      i := i + 1;
    }
  }

  /**
   * main: threads of the corpus, the schedule, then the 30 days. Each day
   * samples, without repetition, min(3,n) to min(7,n) of the corpus's n
   * thread ids. The run's totals are the sums over the days that completed,
   * each of which reported every trace of the threads it replayed; a day
   * that raised did so for a trace of one of its replayed threads. Every
   * trace submitted carries one of the schedule's synthetic keys, each
   * minted during the run and given to exactly one (thread, day) pair, and
   * every sampled (thread, day) pair gets one. `clock` holds the 30 clock
   * readings, one per day in order.
   */
  method Run(traces: seq<Record>, spans: seq<Record>, clock: seq<real>, iso: IsoParser,
             rng: RandomSource, ids: IdSource, sink: Sink)
    returns (totalTraces: nat, totalSpans: nat, threadsPerDay: map<int, seq<Value>>,
             keyMap: map<(Value, int), Value>, ghost threads: seq<Value>, ghost outcomes: seq<Result<(nat, nat)>>)
    requires |clock| == Days
    modifies rng, ids, sink
    ensures Distinct(threads)
    ensures forall t :: t in threads <==> Truthy(t) && exists x :: x in traces && SafeThreadId(x) == t
    ensures forall d :: d in threadsPerDay <==> 1 <= d <= Days
    ensures forall d :: d in threadsPerDay ==>
              Min(3, |threads|) <= |threadsPerDay[d]| <= Min(7, |threads|) && Distinct(threadsPerDay[d])
              && forall t :: t in threadsPerDay[d] ==> t in threads
    ensures forall d, t :: d in threadsPerDay && t in threadsPerDay[d] ==> (t, d) in keyMap
    ensures forall p :: p in keyMap ==> p.1 in threadsPerDay && p.0 in threadsPerDay[p.1]
    ensures KeysInjective(keyMap)
    ensures forall p :: p in keyMap ==> MintedIn(keyMap[p], old(ids.serial), ids.serial)
    ensures |outcomes| == Days
    ensures DaysReported(outcomes, traces, threadsPerDay, keyMap, iso, sink.rejectsTrace)
    ensures Tally(outcomes, totalTraces, totalSpans, |sink.traces| - |old(sink.traces)|, |sink.spans| - |old(sink.spans)|)
    ensures Submissions(old(sink.traces), sink.traces, old(sink.spans), sink.spans, old(ids.serial), ids.serial, keyMap.Values)
  {
    ghost var serial0 := ids.serial;
    var unique := UniqueThreads(traces);
    threads := unique;
    threadsPerDay, keyMap := ScheduleThreads(unique, rng, ids);
    forall d | d in threadsPerDay
      ensures forall t :: t in threadsPerDay[d] ==> t in threads
    {
      SubMultisetMembers(threadsPerDay[d], unique);
    }
    ghost var serial1 := ids.serial;
    SubmissionsNone(sink.traces, sink.spans, serial0, serial1, keyMap.Values);
    ghost var tracesBefore, spansBefore := sink.traces, sink.spans;
    totalTraces, totalSpans, outcomes := ReplayAllDays(traces, spans, threadsPerDay, keyMap, clock, iso, rng, ids, sink);
    SubmissionsChain(tracesBefore, tracesBefore, sink.traces, spansBefore, spansBefore, sink.spans,
                     serial0, serial1, ids.serial, keyMap.Values, keyMap.Values);
  }
}

=== FILE: ordering.dfy ===
/**
 * Grouping a day's traces by thread and ordering each thread's traces by
 * their original start.
 */
module Ordering {
  import opened Values

  /** datetime.min in UTC (0001-01-01T00:00:00Z) as seconds since the epoch. */
  const MinInstant: real := -62135596800.0

  /**
   * The sort key of a trace: its parsed original start as a UTC instant, or
   * datetime.min when the start is absent or unparseable (naive starts are
   * read as UTC, as everywhere else in the replay).
   */
  function StartKey(trace: Record, iso: IsoParser): real
  {
    match ParseDatetime(Get(trace, "start_time"), iso)
    case Some(d) => d.secs
    case None => MinInstant
  }

  /** Neighbouring traces are in non-decreasing key order. */
  ghost predicate SortedByStart(s: seq<Record>, iso: IsoParser)
  {
    forall i :: 0 <= i < |s| - 1 ==> StartKey(s[i], iso) <= StartKey(s[i + 1], iso)
  }

  lemma {:induction false} SortedByStartPairs(s: seq<Record>, iso: IsoParser, i: int, j: int)
    requires SortedByStart(s, iso)
    requires 0 <= i <= j < |s|
    ensures StartKey(s[i], iso) <= StartKey(s[j], iso)
    decreases j - i
  {
    if i < j {
      SortedByStartPairs(s, iso, i + 1, j);
    }
  }

  /** Inserts x after every element whose key is not larger (keeps equal keys in arrival order). */
  function InsertByStart(x: Record, s: seq<Record>, iso: IsoParser): (r: seq<Record>)
    ensures |r| == |s| + 1
    ensures r[0] == x || (|s| > 0 && r[0] == s[0])
    ensures multiset(r) == multiset(s) + multiset{x}
  {
    if s == [] then [x]
    else if StartKey(x, iso) < StartKey(s[0], iso) then [x] + s
    else
      assert s == [s[0]] + s[1..];
      [s[0]] + InsertByStart(x, s[1..], iso)
  }

  /** Inserting into a sorted thread keeps it sorted. */
  lemma {:induction false} InsertByStartSorted(x: Record, s: seq<Record>, iso: IsoParser)
    requires SortedByStart(s, iso)
    ensures SortedByStart(InsertByStart(x, s, iso), iso)
  {
    if s != [] && StartKey(x, iso) >= StartKey(s[0], iso) {
      assert SortedByStart(s[1..], iso);
      InsertByStartSorted(x, s[1..], iso);
      var rest := InsertByStart(x, s[1..], iso);
      assert InsertByStart(x, s, iso) == [s[0]] + rest;
      assert |s| > 1 ==> s[1..][0] == s[1];
    }
  }

  /**
   * `thread_traces.sort(key=...)`: a stable sort by start key. The result is
   * sorted and is a permutation of the input.
   */
  function SortByStart(s: seq<Record>, iso: IsoParser): (r: seq<Record>)
    ensures multiset(r) == multiset(s)
    ensures |r| == |s|
    ensures SortedByStart(r, iso)
    decreases |s|
  {
    if s == [] then []
    else
      assert s == s[..|s| - 1] + [s[|s| - 1]];
      InsertByStartSorted(s[|s| - 1], SortByStart(s[..|s| - 1], iso), iso);
      InsertByStart(s[|s| - 1], SortByStart(s[..|s| - 1], iso), iso)
  }

  /** The elements of s whose start key is k, in the order of s. */
  function WithKey(s: seq<Record>, k: real, iso: IsoParser): seq<Record>
  {
    if s == [] then [] else (if StartKey(s[0], iso) == k then [s[0]] else []) + WithKey(s[1..], k, iso)
  }

  lemma {:induction false} WithKeyAppend(a: seq<Record>, b: seq<Record>, k: real, iso: IsoParser)
    ensures WithKey(a + b, k, iso) == WithKey(a, k, iso) + WithKey(b, k, iso)
  {
    if a != [] {
      assert a + b != [] && (a + b)[0] == a[0];
      assert (a + b)[1..] == a[1..] + b;
      WithKeyAppend(a[1..], b, k, iso);
    } else {
      assert a + b == b;
    }
  }

  lemma WithKeySnoc(init: seq<Record>, last: Record, k: real, iso: IsoParser)
    ensures WithKey(init + [last], k, iso) == WithKey(init, k, iso) + (if StartKey(last, iso) == k then [last] else [])
  {
    WithKeyAppend(init, [last], k, iso);
    assert [last][1..] == [];
  }

  lemma {:induction false} WithKeyAbove(s: seq<Record>, k: real, iso: IsoParser)
    requires forall i :: 0 <= i < |s| ==> StartKey(s[i], iso) > k
    ensures WithKey(s, k, iso) == []
  {
    if s != [] {
      WithKeyAbove(s[1..], k, iso);
    }
  }

  lemma AppendAssoc<T>(a: seq<T>, b: seq<T>, c: seq<T>)
    ensures a + (b + c) == (a + b) + c
  {
  }

  lemma WithKeySingleton(x: Record, k: real, iso: IsoParser)
    ensures WithKey([x], k, iso) == if StartKey(x, iso) == k then [x] else []
  {
    assert [x][1..] == [];
  }

  /** Inserting x in front of a sorted thread whose keys are all above x's. */
  lemma InsertFrontWithKey(x: Record, s: seq<Record>, k: real, iso: IsoParser)
    requires SortedByStart(s, iso) && s != [] && StartKey(x, iso) < StartKey(s[0], iso)
    ensures WithKey([x] + s, k, iso) == WithKey(s, k, iso) + (if StartKey(x, iso) == k then [x] else [])
  {
    WithKeyAppend([x], s, k, iso);
    WithKeySingleton(x, k, iso);
    if StartKey(x, iso) == k {
      forall i | 0 <= i < |s| ensures StartKey(s[i], iso) > k {
        SortedByStartPairs(s, iso, 0, i);
      }
      WithKeyAbove(s, k, iso);
    }
  }

  lemma {:induction false} InsertByStartWithKey(x: Record, s: seq<Record>, k: real, iso: IsoParser)
    requires SortedByStart(s, iso)
    ensures WithKey(InsertByStart(x, s, iso), k, iso)
            == WithKey(s, k, iso) + (if StartKey(x, iso) == k then [x] else [])
  {
    if s == [] {
      assert InsertByStart(x, s, iso) == [x];
      WithKeySingleton(x, k, iso);
    } else if StartKey(x, iso) < StartKey(s[0], iso) {
      assert InsertByStart(x, s, iso) == [x] + s;
      InsertFrontWithKey(x, s, k, iso);
    } else {
      var extra := if StartKey(x, iso) == k then [x] else [];
      var head := if StartKey(s[0], iso) == k then [s[0]] else [];
      var rest := InsertByStart(x, s[1..], iso);
      assert SortedByStart(s[1..], iso);
      InsertByStartWithKey(x, s[1..], k, iso);
      assert WithKey(InsertByStart(x, s, iso), k, iso) == head + (WithKey(s[1..], k, iso) + extra) by {
        var r := [s[0]] + rest;
        assert InsertByStart(x, s, iso) == r;
        assert r[1..] == rest;
      }
      AppendAssoc(head, WithKey(s[1..], k, iso), extra);
    }
  }

  /**
   * Stability: for every key, the traces carrying that key appear in the
   * sorted thread in exactly their corpus order (ties keep corpus order).
   */
  lemma {:induction false} SortByStartIsStable(s: seq<Record>, k: real, iso: IsoParser)
    ensures WithKey(SortByStart(s, iso), k, iso) == WithKey(s, k, iso)
    decreases |s|
  {
    if s != [] {
      var init, last := s[..|s| - 1], s[|s| - 1];
      SortByStartIsStable(init, k, iso);
      InsertByStartWithKey(last, SortByStart(init, iso), k, iso);
      WithKeySnoc(init, last, k, iso);
      assert s == init + [last];
    }
  }

  /**
   * Chronological order: after sorting, a trace whose original start is
   * earlier than another's comes before it; a trace with a missing or
   * unparseable start comes before every trace whose start parses to an
   * instant after datetime.min.
   */
  lemma SortByStartOrder(s: seq<Record>, iso: IsoParser, i: int, j: int)
    requires 0 <= i < |s| && 0 <= j < |s|
    requires StartKey(SortByStart(s, iso)[i], iso) < StartKey(SortByStart(s, iso)[j], iso)
    ensures i < j
  {
    if j <= i {
      SortedByStartPairs(SortByStart(s, iso), iso, j, i);
    }
  }

  lemma MissingStartsSortFirst(s: seq<Record>, iso: IsoParser, i: int, j: int)
    requires 0 <= i < |s| && 0 <= j < |s|
    requires ParseDatetime(Get(SortByStart(s, iso)[i], "start_time"), iso).None?
    requires ParseDatetime(Get(SortByStart(s, iso)[j], "start_time"), iso).Some?
    requires ParseDatetime(Get(SortByStart(s, iso)[j], "start_time"), iso).value.secs > MinInstant
    ensures i < j
  {
    SortByStartOrder(s, iso, i, j);
  }

  /** The traces of `traces` whose thread id is t, in corpus order. */
  function ThreadTraces(traces: seq<Record>, t: Value): (r: seq<Record>)
    ensures forall x :: x in r ==> x in traces && SafeThreadId(x) == t
  {
    if traces == [] then []
    else
      var last := traces[|traces| - 1];
      ThreadTraces(traces[..|traces| - 1], t) + (if SafeThreadId(last) == t then [last] else [])
  }

  /** Every trace of the corpus that carries thread id t is in t's group. */
  lemma {:induction false} ThreadTracesComplete(traces: seq<Record>, t: Value, x: Record)
    requires x in traces && SafeThreadId(x) == t
    ensures x in ThreadTraces(traces, t)
    decreases |traces|
  {
    var init, last := traces[..|traces| - 1], traces[|traces| - 1];
    assert traces == init + [last];
    if x != last {
      ThreadTracesComplete(init, t, x);
    }
  }

  /**
   * Grouping of upload_traces_for_day: only traces whose thread id is truthy
   * and assigned to the day are kept, each thread's list in corpus order, and
   * a thread gets an entry exactly when it has at least one such trace.
   */
  method GroupByThread(traces: seq<Record>, threadsForDay: seq<Value>) returns (groups: map<Value, seq<Record>>)
    ensures forall t :: t in groups <==> Truthy(t) && t in threadsForDay && ThreadTraces(traces, t) != []
    ensures forall t :: t in groups ==> groups[t] == ThreadTraces(traces, t)
  {
    groups := map[];
    var i := 0;
    while i < |traces|
      invariant 0 <= i <= |traces|
      invariant forall t :: t in groups <==> Truthy(t) && t in threadsForDay && ThreadTraces(traces[..i], t) != []
      invariant forall t :: t in groups ==> groups[t] == ThreadTraces(traces[..i], t)
    {
      var trace := traces[i];
      assert traces[..i + 1][..i] == traces[..i];
      var threadId := SafeThreadId(trace);
      if Truthy(threadId) && threadId in threadsForDay {
        var sofar := if threadId in groups then groups[threadId] else [];
        groups := groups[threadId := sofar + [trace]];
      }
      i := i + 1;
    }
    assert traces[..i] == traces;
  }

  /** A trace without a truthy thread id is in no day's group. */
  lemma UnthreadedTraceNeverGrouped(traces: seq<Record>, threadsForDay: seq<Value>,
                                    groups: map<Value, seq<Record>>, x: Record)
    requires forall t :: t in groups ==> groups[t] == ThreadTraces(traces, t)
    requires !Truthy(SafeThreadId(x))
    requires forall t :: t in groups ==> Truthy(t)
    ensures forall t :: t in groups ==> x !in groups[t]
  {
  }
}

=== FILE: placement.dfy ===
/**
 * What a thread's replay has placed so far: the traces submitted, each
 * rewritten into its slot under the thread's synthetic key, with the slots
 * laid out back to back and each lasting the trace's desired duration.
 */
module Placement {
  import opened Values
  import opened TimeMap
  import opened Oracles
  import opened Layout
  import opened Rewrite

  /** The k-th trace of a thread as submitted: rewritten with its new id and window. */
  function Rewritten(threadTraces: seq<Record>, traceIds: seq<Value>, slots: seq<Slot>, key: Value): (r: seq<Record>)
    requires |traceIds| == |slots| <= |threadTraces|
    ensures |r| == |slots|
  {
    seq(|slots|, k requires 0 <= k < |slots| =>
      RewriteTrace(threadTraces[k], traceIds[k], slots[k].start, slots[k].end, key))
  }

  lemma RewrittenSnoc(threadTraces: seq<Record>, traceIds: seq<Value>, slots: seq<Slot>, key: Value, id: Value, s: Slot)
    requires |traceIds| == |slots| < |threadTraces|
    ensures Rewritten(threadTraces, traceIds + [id], slots + [s], key)
            == Rewritten(threadTraces, traceIds, slots, key) + [RewriteTrace(threadTraces[|slots|], id, s.start, s.end, key)]
  {
  }

  /**
   * The span submissions of one placed trace: its spans (by its original
   * id), rewritten with the trace's scale onto its slot, with replacement
   * ids numbered right after the trace's own id, as the sink accepts them
   * under trace handle `handle`.
   */
  function PlacedSpans(trace: Record, allSpans: seq<Record>, handle: nat, id: Value, scale: real, slot: Slot,
                       iso: IsoParser, rejects: Record -> bool): seq<SpanCall>
    requires id.Minted?
  {
    var rs := TraceRescale(trace, iso, scale, slot.start, slot.end);
    var traceSpans := SpansOf(allSpans, Get(trace, "id"));
    SubmittedSpans(handle, traceSpans, ReplacementIds(traceSpans, id.serial + 1, rs, iso), rs, iso, rejects)
  }

  /** The concatenation of a sequence of chunks, in order. */
  function Flatten<T>(chunks: seq<seq<T>>): (r: seq<T>)
    ensures chunks == [] ==> r == []
  {
    if chunks == [] then [] else Flatten(chunks[..|chunks| - 1]) + chunks[|chunks| - 1]
  }

  lemma FlattenSnoc<T>(before: seq<T>, chunks: seq<seq<T>>, c: seq<T>)
    ensures before + Flatten(chunks + [c]) == (before + Flatten(chunks)) + c
  {
    assert (chunks + [c])[..|chunks|] == chunks;
  }

  /**
   * The sink's trace log grew from `before` to `after` by exactly the first
   * |slots| traces of the thread, in order, each rewritten into its slot with
   * a new id generated for the slot's start; each of those traces has an id,
   * its computed scale, and a slot lasting its desired duration, and the
   * slots are well laid out after the anchor.
   */
  ghost predicate Placed(threadTraces: seq<Record>, key: Value, anchor: real, iso: IsoParser,
                         before: seq<Record>, after: seq<Record>,
                         slots: seq<Slot>, durations: seq<real>, scales: seq<real>, traceIds: seq<Value>)
  {
    && |slots| == |durations| == |scales| == |traceIds| <= |threadTraces|
    && after == before + Rewritten(threadTraces, traceIds, slots, key)
    && (forall k :: 0 <= k < |slots| ==>
          "id" in threadTraces[k]
          && ComputeScaleFactor(threadTraces[k], iso).Ok? && ComputeScaleFactor(threadTraces[k], iso).value == scales[k]
          && DesiredSeconds(threadTraces[k]).Ok? && DesiredSeconds(threadTraces[k]).value == durations[k])
    && (forall k :: 0 <= k < |slots| ==> traceIds[k].Minted? && traceIds[k].at == Some(slots[k].start))
    && WellLaidOut(slots, anchor, durations)
  }

  /**
   * The sink's span log grew from `before` to `after` by exactly the span
   * submissions of the first |slots| placed traces, in order: chunk k is the
   * spans of trace k, submitted under handle firstHandle + k and rescaled
   * with that trace's own scale onto its slot.
   */
  ghost predicate SpansLaid(threadTraces: seq<Record>, allSpans: seq<Record>, iso: IsoParser, rejects: Record -> bool,
                            firstHandle: nat, before: seq<SpanCall>, after: seq<SpanCall>,
                            slots: seq<Slot>, scales: seq<real>, traceIds: seq<Value>, chunks: seq<seq<SpanCall>>)
  {
    && |chunks| == |slots| == |scales| == |traceIds| <= |threadTraces|
    && (forall k :: 0 <= k < |slots| ==> traceIds[k].Minted?)
    && after == before + Flatten(chunks)
    && (forall k :: 0 <= k < |slots| ==>
          chunks[k] == PlacedSpans(threadTraces[k], allSpans, firstHandle + k, traceIds[k], scales[k], slots[k], iso, rejects))
  }

  lemma PlacedNone(threadTraces: seq<Record>, allSpans: seq<Record>, key: Value, anchor: real, iso: IsoParser,
                   rejects: Record -> bool, before: seq<Record>, spansBefore: seq<SpanCall>)
    ensures Placed(threadTraces, key, anchor, iso, before, before, [], [], [], [])
    ensures SpansLaid(threadTraces, allSpans, iso, rejects, |before|, spansBefore, spansBefore, [], [], [], [])
  {
    assert before + Rewritten(threadTraces, [], [], key) == before;
    assert spansBefore + [] == spansBefore;
  }

  /** Placing the next trace of the thread in a slot that follows the layout. */
  lemma PlacedSnoc(threadTraces: seq<Record>, key: Value, anchor: real, iso: IsoParser,
                   before: seq<Record>, after: seq<Record>,
                   slots: seq<Slot>, durations: seq<real>, scales: seq<real>, traceIds: seq<Value>,
                   id: Value, s: Slot, d: real, scale: real)
    requires Placed(threadTraces, key, anchor, iso, before, after, slots, durations, scales, traceIds)
    requires |slots| < |threadTraces|
    requires "id" in threadTraces[|slots|]
    requires ComputeScaleFactor(threadTraces[|slots|], iso).Ok? && ComputeScaleFactor(threadTraces[|slots|], iso).value == scale
    requires DesiredSeconds(threadTraces[|slots|]).Ok? && DesiredSeconds(threadTraces[|slots|]).value == d
    requires id.Minted? && id.at == Some(s.start)
    requires s.end == s.start + d
    requires |slots| == 0 ==> anchor <= s.start <= anchor + ThreadSpreadMax as real
    requires |slots| > 0 ==> GapMin as real <= s.start - slots[|slots| - 1].end <= GapMax as real
    ensures Placed(threadTraces, key, anchor, iso, before, after + [RewriteTrace(threadTraces[|slots|], id, s.start, s.end, key)],
                   slots + [s], durations + [d], scales + [scale], traceIds + [id])
  {
    WellLaidOutSnoc(slots, anchor, durations, s, d);
    RewrittenSnoc(threadTraces, traceIds, slots, key, id, s);
    var durations', scales', slots', traceIds' := durations + [d], scales + [scale], slots + [s], traceIds + [id];
    forall k | 0 <= k < |slots| + 1
      ensures "id" in threadTraces[k]
      ensures ComputeScaleFactor(threadTraces[k], iso).Ok? && ComputeScaleFactor(threadTraces[k], iso).value == scales'[k]
      ensures DesiredSeconds(threadTraces[k]).Ok? && DesiredSeconds(threadTraces[k]).value == durations'[k]
      ensures traceIds'[k].Minted? && traceIds'[k].at == Some(slots'[k].start)
    {
      if k < |slots| {
        assert durations'[k] == durations[k] && scales'[k] == scales[k] && traceIds'[k] == traceIds[k] && slots'[k] == slots[k];
      }
    }
  }

  /** Submitting the next placed trace's spans. */
  lemma SpansLaidSnoc(threadTraces: seq<Record>, allSpans: seq<Record>, iso: IsoParser, rejects: Record -> bool,
                      firstHandle: nat, before: seq<SpanCall>, after: seq<SpanCall>,
                      slots: seq<Slot>, scales: seq<real>, traceIds: seq<Value>, chunks: seq<seq<SpanCall>>,
                      trace: Record, handle: nat, id: Value, s: Slot, scale: real, after': seq<SpanCall>)
    requires SpansLaid(threadTraces, allSpans, iso, rejects, firstHandle, before, after, slots, scales, traceIds, chunks)
    requires |slots| < |threadTraces| && trace == threadTraces[|slots|] && handle == firstHandle + |slots| && id.Minted?
    requires after' == after + PlacedSpans(trace, allSpans, handle, id, scale, s, iso, rejects)
    ensures SpansLaid(threadTraces, allSpans, iso, rejects, firstHandle, before, after',
                      slots + [s], scales + [scale], traceIds + [id],
                      chunks + [PlacedSpans(trace, allSpans, handle, id, scale, s, iso, rejects)])
  {
    var c := PlacedSpans(trace, allSpans, handle, id, scale, s, iso, rejects);
    FlattenSnoc(before, chunks, c);
    var scales', slots', traceIds', chunks' := scales + [scale], slots + [s], traceIds + [id], chunks + [c];
    forall k | 0 <= k < |slots| + 1
      ensures traceIds'[k].Minted?
      ensures chunks'[k] == PlacedSpans(threadTraces[k], allSpans, firstHandle + k, traceIds'[k], scales'[k], slots'[k], iso, rejects)
    {
      if k < |slots| {
        assert scales'[k] == scales[k] && traceIds'[k] == traceIds[k] && slots'[k] == slots[k] && chunks'[k] == chunks[k];
      }
    }
  }
}

=== FILE: rewrite.dfy ===
/**
 * Rewriting one trace and its spans: new identifiers, new timestamps, the
 * replacement-id table for parent links, and the field filters.
 */
module Rewrite {
  import opened Values
  import opened TimeMap
  import opened Oracles

  /** Fields popped from a trace before submission. */
  const TraceDenyKeys: set<string> := {"feedback_scores", "duration", "project_id", "span_count", "llm_span_count"}

  /** The only fields a span submission may carry. */
  const SpanAllowedKeys: set<string> :=
    {"id", "parent_span_id", "name", "type", "start_time", "end_time", "metadata", "input",
     "output", "tags", "usage", "model", "provider", "error_info", "total_cost", "attachments"}

  /** The fields the trace rewrite sets. */
  const TraceSetKeys: set<string> := {"id", "start_time", "end_time", "thread_id", "project_name"}

  /**
   * The submitted copy of a trace: new id, new window, the synthetic thread
   * key and the project name; the deny-listed fields are gone and every other
   * field passes through unchanged.
   */
  function RewriteTrace(trace: Record, newId: Value, start: real, end: real, key: Value): (r: Record)
    ensures r.Keys == trace.Keys + TraceSetKeys - TraceDenyKeys
    ensures r["id"] == newId && r["thread_id"] == key && r["project_name"] == Text(ProjectName)
    ensures r["start_time"] == UtcStamp(start) && r["end_time"] == UtcStamp(end)
    ensures forall f :: f in trace && f !in TraceSetKeys && f !in TraceDenyKeys ==> r[f] == trace[f]
  {
    var copy := trace["id" := newId]["start_time" := UtcStamp(start)]["end_time" := UtcStamp(end)]["thread_id" := key];
    (copy - TraceDenyKeys)["project_name" := Text(ProjectName)]
  }

  function SpanId(span: Record): Value
  {
    Get(span, "id")
  }

  /** `[span for span in spans if span.get('trace_id') == save_id]`. */
  function SpansOf(spans: seq<Record>, traceId: Value): (r: seq<Record>)
    ensures forall s :: s in r ==> s in spans && Get(s, "trace_id") == traceId
  {
    if spans == [] then []
    else
      var last := spans[|spans| - 1];
      SpansOf(spans[..|spans| - 1], traceId) + (if Get(last, "trace_id") == traceId then [last] else [])
  }

  /** Every span of the corpus whose trace_id is the trace's original id is among the trace's spans. */
  lemma {:induction false} SpansOfComplete(spans: seq<Record>, traceId: Value, s: Record)
    requires s in spans && Get(s, "trace_id") == traceId
    ensures s in SpansOf(spans, traceId)
    decreases |spans|
  {
    var init, last := spans[..|spans| - 1], spans[|spans| - 1];
    assert spans == init + [last];
    if s != last {
      SpansOfComplete(init, traceId, s);
    }
  }

  /** The number of spans with a truthy id: one identifier is generated for each. */
  function CountIds(spans: seq<Record>): nat
  {
    if spans == [] then 0
    else CountIds(spans[..|spans| - 1]) + (if Truthy(SpanId(spans[|spans| - 1])) then 1 else 0)
  }

  /** The truthy ids carried by the spans. */
  function IdsOf(spans: seq<Record>): set<Value>
  {
    set s | s in spans && Truthy(SpanId(s)) :: SpanId(s)
  }

  /**
   * The instant the span's new id is generated for: its rescaled start, the
   * original trace start (so the new trace start) when its own start is
   * absent or does not parse.
   */
  function IdStamp(span: Record, rs: Rescale, iso: IsoParser): (r: real)
    ensures ParseDatetime(Get(span, "start_time"), iso).None? ==> r == rs.newStart
  {
    var t := match ParseDatetime(Get(span, "start_time"), iso)
             case Some(d) => d.secs
             case None => rs.origStart;
    MapPoint(rs, t)
  }

  /**
   * span_replacement_ids after the first pass: every span with a truthy id, in
   * order, gets the next generated id (numbering from `first`); a later span
   * with the same id overwrites the entry.
   */
  function ReplacementIds(spans: seq<Record>, first: nat, rs: Rescale, iso: IsoParser): map<Value, Value>
  {
    if spans == [] then map[]
    else
      var init, last := spans[..|spans| - 1], spans[|spans| - 1];
      var m := ReplacementIds(init, first, rs, iso);
      if Truthy(SpanId(last)) then m[SpanId(last) := Minted(first + CountIds(init), Some(IdStamp(last, rs, iso)))]
      else m
  }

  /**
   * A span timestamp rewrite: a truthy field is mapped through the trace's
   * scale when it parses and replaced by the fallback when it does not; an
   * absent or falsy field is left as it is.
   */
  function RewriteTime(d: Record, field: string, fallback: real, rs: Rescale, iso: IsoParser): (r: Record)
    ensures r.Keys == d.Keys
    ensures forall f :: f in d && f != field ==> r[f] == d[f]
  {
    if field in d && Truthy(d[field]) then
      match ParseDatetime(d[field], iso)
      case Some(t) => d[field := UtcStamp(MapPoint(rs, t.secs))]
      case None => d[field := UtcStamp(fallback)]
    else d
  }

  /** The allow-list filter. */
  function AllowedOnly(d: Record): (r: Record)
    ensures r.Keys == d.Keys * SpanAllowedKeys
    ensures forall f :: f in r ==> r[f] == d[f]
  {
    map f | f in d && f in SpanAllowedKeys :: d[f]
  }

  /**
   * The submitted copy of a span (second pass): its id and parent looked up
   * in the replacement table, its times rewritten, `duration` dropped, and of
   * the rest only the allow-listed fields kept, unchanged.
   */
  function RewriteSpan(span: Record, ids: map<Value, Value>, rs: Rescale, iso: IsoParser): (r: Record)
    ensures r.Keys == (span.Keys + {"id", "parent_span_id"}) * SpanAllowedKeys
    ensures "id" in r && r["id"] == Lookup(ids, SpanId(span))
    ensures "parent_span_id" in r && r["parent_span_id"] == Lookup(ids, Get(span, "parent_span_id"))
    ensures forall f :: f in span && f in SpanAllowedKeys - {"id", "parent_span_id", "start_time", "end_time"} ==>
              r[f] == span[f]
  {
    var linked := span["id" := Lookup(ids, SpanId(span))]["parent_span_id" := Lookup(ids, Get(span, "parent_span_id"))];
    var timed := RewriteTime(RewriteTime(linked, "start_time", rs.newStart, rs, iso), "end_time", rs.newEnd, rs, iso);
    assert timed.Keys == span.Keys + {"id", "parent_span_id"};
    assert "duration" !in SpanAllowedKeys;
    AllowedOnly(timed - {"duration"})
  }

  /**
   * The span creations that succeed, in order, under trace handle `handle`:
   * spans without a truthy id are skipped, and a span the sink rejects is
   * dropped without affecting the others.
   */
  function SubmittedSpans(handle: nat, spans: seq<Record>, ids: map<Value, Value>, rs: Rescale,
                          iso: IsoParser, rejects: Record -> bool): seq<SpanCall>
  {
    if spans == [] then []
    else
      var init, last := spans[..|spans| - 1], spans[|spans| - 1];
      var rewritten := RewriteSpan(last, ids, rs, iso);
      SubmittedSpans(handle, init, ids, rs, iso, rejects)
      + (if Truthy(SpanId(last)) && !rejects(rewritten) then [SpanCall(handle, rewritten)] else [])
  }

  /** A generated identifier numbered in [lo, hi). */
  predicate MintedIn(v: Value, lo: nat, hi: nat)
  {
    v.Minted? && lo <= v.serial < hi
  }

  /** What every submitted span satisfies. */
  predicate SpanHygienic(r: Record, lo: nat, hi: nat)
  {
    && r.Keys <= SpanAllowedKeys
    && "id" in r && MintedIn(r["id"], lo, hi)
    && "parent_span_id" in r && (r["parent_span_id"] == Null || MintedIn(r["parent_span_id"], lo, hi))
  }

  /** What every submitted trace satisfies. */
  predicate TraceHygienic(r: Record, keys: set<Value>, lo: nat, hi: nat)
  {
    && r.Keys !! TraceDenyKeys
    && "id" in r && MintedIn(r["id"], lo, hi)
    && "start_time" in r && r["start_time"].Stamp? && r["start_time"].t.aware
    && "end_time" in r && r["end_time"].Stamp? && r["end_time"].t.aware
    && "thread_id" in r && r["thread_id"] in keys
    && "project_name" in r && r["project_name"] == Text(ProjectName)
  }

  /** The first pass's table maps exactly the truthy span ids. */
  lemma {:induction false} ReplacementIdsKeys(spans: seq<Record>, first: nat, rs: Rescale, iso: IsoParser)
    ensures ReplacementIds(spans, first, rs, iso).Keys == IdsOf(spans)
    decreases |spans|
  {
    if spans != [] {
      var init, last := spans[..|spans| - 1], spans[|spans| - 1];
      assert spans == init + [last];
      ReplacementIdsKeys(init, first, rs, iso);
      assert IdsOf(spans) == IdsOf(init) + (if Truthy(SpanId(last)) then {SpanId(last)} else {});
    }
  }

  /** Every entry of the table is an identifier generated during the first pass. */
  lemma {:induction false} ReplacementIdsFresh(spans: seq<Record>, first: nat, rs: Rescale, iso: IsoParser)
    ensures forall v :: v in ReplacementIds(spans, first, rs, iso) ==>
              MintedIn(ReplacementIds(spans, first, rs, iso)[v], first, first + CountIds(spans))
    decreases |spans|
  {
    if spans != [] {
      var init, last := spans[..|spans| - 1], spans[|spans| - 1];
      ReplacementIdsFresh(init, first, rs, iso);
      var m0 := ReplacementIds(init, first, rs, iso);
      var m := ReplacementIds(spans, first, rs, iso);
      var hi := first + CountIds(spans);
      if Truthy(SpanId(last)) {
        var v := Minted(first + CountIds(init), Some(IdStamp(last, rs, iso)));
        assert m == m0[SpanId(last) := v];
        forall w | w in m ensures MintedIn(m[w], first, hi) {
          if w != SpanId(last) {
            assert MintedIn(m0[w], first, first + CountIds(init));
          }
        }
      } else {
        assert m == m0;
      }
    }
  }

  /** Distinct old ids are mapped to distinct new ids. */
  lemma {:induction false} ReplacementIdsInjective(spans: seq<Record>, first: nat, rs: Rescale, iso: IsoParser)
    ensures forall v, w ::
              (v in ReplacementIds(spans, first, rs, iso) && w in ReplacementIds(spans, first, rs, iso) && v != w)
              ==> ReplacementIds(spans, first, rs, iso)[v] != ReplacementIds(spans, first, rs, iso)[w]
    decreases |spans|
  {
    if spans != [] {
      var init, last := spans[..|spans| - 1], spans[|spans| - 1];
      ReplacementIdsInjective(init, first, rs, iso);
      ReplacementIdsFresh(init, first, rs, iso);
      var m0 := ReplacementIds(init, first, rs, iso);
      var m := ReplacementIds(spans, first, rs, iso);
      if Truthy(SpanId(last)) {
        var newId := Minted(first + CountIds(init), Some(IdStamp(last, rs, iso)));
        assert m == m0[SpanId(last) := newId];
        forall v, w | v in m && w in m && v != w ensures m[v] != m[w] {
          if v == SpanId(last) {
            assert MintedIn(m0[w], first, first + CountIds(init));
          } else if w == SpanId(last) {
            assert MintedIn(m0[v], first, first + CountIds(init));
          }
        }
      } else {
        assert m == m0;
      }
    }
  }

  /**
   * The new id of the last span carrying a given id is generated for that
   * span's own rescaled start.
   */
  lemma {:induction false} ReplacementIdStampedWithOwnStart(spans: seq<Record>, first: nat, rs: Rescale,
                                                            iso: IsoParser, i: int)
    requires 0 <= i < |spans| && Truthy(SpanId(spans[i]))
    requires forall j :: i < j < |spans| ==> SpanId(spans[j]) != SpanId(spans[i])
    ensures var m := ReplacementIds(spans, first, rs, iso);
            SpanId(spans[i]) in m && m[SpanId(spans[i])].Minted?
            && m[SpanId(spans[i])].at == Some(IdStamp(spans[i], rs, iso))
    decreases |spans|
  {
    var init := spans[..|spans| - 1];
    if i < |spans| - 1 {
      ReplacementIdStampedWithOwnStart(init, first, rs, iso, i);
    }
  }

  /**
   * Parent links survive the rewrite: if A's parent is B's id (B with a
   * truthy id in the same trace), the rewritten A's parent is the rewritten
   * B's id.
   */
  lemma ParentLinkPreserved(spans: seq<Record>, first: nat, rs: Rescale, iso: IsoParser, a: Record, b: Record)
    requires a in spans && b in spans && Truthy(SpanId(b))
    requires Get(a, "parent_span_id") == SpanId(b)
    ensures var ids := ReplacementIds(spans, first, rs, iso);
            RewriteSpan(a, ids, rs, iso)["parent_span_id"] == RewriteSpan(b, ids, rs, iso)["id"]
            && RewriteSpan(b, ids, rs, iso)["id"].Minted?
  {
    ReplacementIdsKeys(spans, first, rs, iso);
    ReplacementIdsFresh(spans, first, rs, iso);
    assert SpanId(b) in IdsOf(spans);
  }

  /**
   * A parent that is not the id of a span of the same trace becomes None,
   * never a stale identifier.
   */
  lemma DanglingParentBecomesNull(spans: seq<Record>, first: nat, rs: Rescale, iso: IsoParser, a: Record)
    requires forall b :: b in spans && Truthy(SpanId(b)) ==> Get(a, "parent_span_id") != SpanId(b)
    ensures RewriteSpan(a, ReplacementIds(spans, first, rs, iso), rs, iso)["parent_span_id"] == Null
  {
    ReplacementIdsKeys(spans, first, rs, iso);
  }

  /** Spans with different ids are given different new ids. */
  lemma DistinctSpansGetDistinctIds(spans: seq<Record>, first: nat, rs: Rescale, iso: IsoParser, a: Record, b: Record)
    requires a in spans && b in spans && Truthy(SpanId(a)) && Truthy(SpanId(b))
    requires SpanId(a) != SpanId(b)
    ensures var ids := ReplacementIds(spans, first, rs, iso);
            RewriteSpan(a, ids, rs, iso)["id"] != RewriteSpan(b, ids, rs, iso)["id"]
  {
    ReplacementIdsKeys(spans, first, rs, iso);
    ReplacementIdsInjective(spans, first, rs, iso);
    assert SpanId(a) in IdsOf(spans) && SpanId(b) in IdsOf(spans);
  }

  /**
   * Span timestamps: a truthy start (end) that parses is mapped with the
   * trace's single scale; one that does not parse becomes the new trace
   * start (end); an absent or falsy one is left untouched. `duration` is
   * never forwarded.
   */
  lemma SpanTimesFollowTraceScale(span: Record, ids: map<Value, Value>, rs: Rescale, iso: IsoParser)
    ensures var r := RewriteSpan(span, ids, rs, iso);
            && "duration" !in r
            && ("start_time" in span && Truthy(span["start_time"]) ==>
                  r["start_time"] == match ParseDatetime(span["start_time"], iso)
                                     case Some(t) => UtcStamp(MapPoint(rs, t.secs))
                                     case None => UtcStamp(rs.newStart))
            && ("end_time" in span && Truthy(span["end_time"]) ==>
                  r["end_time"] == match ParseDatetime(span["end_time"], iso)
                                   case Some(t) => UtcStamp(MapPoint(rs, t.secs))
                                   case None => UtcStamp(rs.newEnd))
            && ("start_time" in span && !Truthy(span["start_time"]) ==> r["start_time"] == span["start_time"])
            && ("end_time" in span && !Truthy(span["end_time"]) ==> r["end_time"] == span["end_time"])
            && ("start_time" !in span ==> "start_time" !in r)
            && ("end_time" !in span ==> "end_time" !in r)
  {
  }

  /**
   * When the span's start is rewritten, the instant its new id was generated
   * for is exactly its new start.
   */
  lemma IdStampMatchesNewStart(span: Record, ids: map<Value, Value>, rs: Rescale, iso: IsoParser)
    requires "start_time" in span && Truthy(span["start_time"])
    ensures RewriteSpan(span, ids, rs, iso)["start_time"] == UtcStamp(IdStamp(span, rs, iso))
  {
    assert Get(span, "start_time") == span["start_time"];
    match ParseDatetime(span["start_time"], iso)
    case Some(t) =>
    case None =>
      assert MapPoint(rs, rs.origStart) == rs.newStart;
  }

  /**
   * Field hygiene of spans: every rewritten span with a truthy id carries only
   * allow-listed keys, a new id from the first pass and a parent that is None
   * or another id of the same pass.
   */
  lemma RewrittenSpanHygienic(spans: seq<Record>, first: nat, rs: Rescale, iso: IsoParser, span: Record)
    requires span in spans && Truthy(SpanId(span))
    ensures SpanHygienic(RewriteSpan(span, ReplacementIds(spans, first, rs, iso), rs, iso),
                         first, first + CountIds(spans))
  {
    ReplacementIdsKeys(spans, first, rs, iso);
    ReplacementIdsFresh(spans, first, rs, iso);
    assert SpanId(span) in IdsOf(spans);
  }

  /**
   * Everything submitted for a trace is hygienic, sits under the trace's
   * handle, was accepted by the sink, and there are never more successful
   * creations than spans.
   */
  lemma {:induction false} SubmittedSpansHygienic(handle: nat, spans: seq<Record>, ids: map<Value, Value>,
                                                  rs: Rescale, iso: IsoParser, rejects: Record -> bool, lo: nat, hi: nat)
    requires forall s :: s in spans && Truthy(SpanId(s)) ==> SpanHygienic(RewriteSpan(s, ids, rs, iso), lo, hi)
    ensures |SubmittedSpans(handle, spans, ids, rs, iso, rejects)| <= |spans|
    ensures forall c :: c in SubmittedSpans(handle, spans, ids, rs, iso, rejects) ==>
              c.trace == handle && SpanHygienic(c.record, lo, hi) && !rejects(c.record)
    decreases |spans|
  {
    if spans != [] {
      var init, last := spans[..|spans| - 1], spans[|spans| - 1];
      assert forall s :: s in init ==> s in spans;
      SubmittedSpansHygienic(handle, init, ids, rs, iso, rejects, lo, hi);
      var rewritten := RewriteSpan(last, ids, rs, iso);
      var step := if Truthy(SpanId(last)) && !rejects(rewritten) then [SpanCall(handle, rewritten)] else [];
      assert SubmittedSpans(handle, spans, ids, rs, iso, rejects) == SubmittedSpans(handle, init, ids, rs, iso, rejects) + step;
      forall c | c in SubmittedSpans(handle, spans, ids, rs, iso, rejects)
        ensures c.trace == handle && SpanHygienic(c.record, lo, hi) && !rejects(c.record)
      {
        if c !in step {
          assert c in SubmittedSpans(handle, init, ids, rs, iso, rejects);
        }
      }
    }
  }

  /** The submitted trace carries no deny-listed field, its new id, its new window and the thread key. */
  lemma RewrittenTraceHygienic(trace: Record, newId: Value, start: real, end: real, key: Value, lo: nat, hi: nat)
    requires MintedIn(newId, lo, hi)
    ensures TraceHygienic(RewriteTrace(trace, newId, start, end, key), {key}, lo, hi)
  {
  }
}

=== FILE: sink_log.dfy ===
/**
 * What a stretch of the replay leaves in the sink: the conditions every
 * trace and span submitted during it satisfies, and how stretches compose.
 */
module SinkLog {
  import opened Values
  import opened Oracles
  import opened Rewrite

  /** Every span creation from index `from` on is hygienic and sits under a trace handle in [tlo, thi). */
  ghost predicate SpansSince(calls: seq<SpanCall>, from: nat, lo: nat, hi: nat, tlo: nat, thi: nat)
  {
    forall k :: from <= k < |calls| ==> SpanHygienic(calls[k].record, lo, hi) && tlo <= calls[k].trace < thi
  }

  /** Every trace from index `from` on is hygienic, with a thread key from `keys`. */
  ghost predicate TracesSince(traces: seq<Record>, from: nat, keys: set<Value>, lo: nat, hi: nat)
  {
    forall k :: from <= k < |traces| ==> TraceHygienic(traces[k], keys, lo, hi)
  }

  /**
   * Chaining: what was hygienic before a step stays so in the wider id and
   * handle ranges after it, together with what the step added.
   */
  lemma SpansSinceChain(before: seq<SpanCall>, after: seq<SpanCall>, from: nat, lo: nat, mid: nat, hi: nat,
                        tlo: nat, tmid: nat, thi: nat)
    requires before <= after && from <= |before|
    requires lo <= mid <= hi && tlo <= tmid <= thi
    requires SpansSince(before, from, lo, mid, tlo, tmid)
    requires SpansSince(after, |before|, mid, hi, tmid, thi)
    ensures SpansSince(after, from, lo, hi, tlo, thi)
  {
    forall k | from <= k < |after|
      ensures SpanHygienic(after[k].record, lo, hi) && tlo <= after[k].trace < thi
    {
      if k < |before| {
        assert after[k] == before[k];
      }
    }
  }

  lemma TracesSinceChain(before: seq<Record>, after: seq<Record>, from: nat, keys: set<Value>, keys': set<Value>,
                         lo: nat, mid: nat, hi: nat)
    requires before <= after && from <= |before|
    requires lo <= mid <= hi && keys' <= keys
    requires TracesSince(before, from, keys, lo, mid)
    requires TracesSince(after, |before|, keys', mid, hi)
    ensures TracesSince(after, from, keys, lo, hi)
  {
    forall k | from <= k < |after| ensures TraceHygienic(after[k], keys, lo, hi) {
      if k < |before| {
        assert after[k] == before[k];
      }
    }
  }

  /**
   * What a stretch of the replay leaves behind: the sink's traces and spans
   * only grew, the identifiers minted lie in [lo, hi), every new trace is
   * hygienic with a thread key from `keys`, and every new span is hygienic
   * and sits under one of the new traces.
   */
  ghost predicate Submissions(t0: seq<Record>, t1: seq<Record>, s0: seq<SpanCall>, s1: seq<SpanCall>,
                              lo: nat, hi: nat, keys: set<Value>)
  {
    && t0 <= t1 && s0 <= s1 && lo <= hi
    && TracesSince(t1, |t0|, keys, lo, hi)
    && SpansSince(s1, |s0|, lo, hi, |t0|, |t1|)
  }

  /** Two stretches in a row make one, under the wider key set. */
  lemma SubmissionsChain(t0: seq<Record>, t1: seq<Record>, t2: seq<Record>,
                         s0: seq<SpanCall>, s1: seq<SpanCall>, s2: seq<SpanCall>,
                         lo: nat, mid: nat, hi: nat, keys: set<Value>, keys': set<Value>)
    requires Submissions(t0, t1, s0, s1, lo, mid, keys)
    requires Submissions(t1, t2, s1, s2, mid, hi, keys')
    requires keys' <= keys
    ensures Submissions(t0, t2, s0, s2, lo, hi, keys)
  {
    TracesSinceChain(t1, t2, |t0|, keys, keys', lo, mid, hi);
    SpansSinceChain(s1, s2, |s0|, lo, mid, hi, |t0|, |t1|, |t2|);
  }

  /** A stretch that submits nothing. */
  lemma SubmissionsNone(t: seq<Record>, s: seq<SpanCall>, lo: nat, hi: nat, keys: set<Value>)
    requires lo <= hi
    ensures Submissions(t, t, s, s, lo, hi, keys)
  {
  }

  /**
   * A stretch that submits one hygienic trace, with an id from [lo, mid),
   * and then only hygienic spans under it, with ids from [mid, hi).
   */
  lemma SubmissionsOneTrace(t0: seq<Record>, trace: Record, s0: seq<SpanCall>, s1: seq<SpanCall>,
                            lo: nat, mid: nat, hi: nat, keys: set<Value>)
    requires lo <= mid <= hi
    requires TraceHygienic(trace, keys, lo, mid)
    requires s0 <= s1
    requires forall k :: |s0| <= k < |s1| ==> s1[k].trace == |t0| && SpanHygienic(s1[k].record, mid, hi)
    ensures Submissions(t0, t0 + [trace], s0, s1, lo, hi, keys)
  {
    assert (t0 + [trace])[|t0|] == trace;
  }

  /** Allowing more thread keys. */
  lemma SubmissionsWiden(t0: seq<Record>, t1: seq<Record>, s0: seq<SpanCall>, s1: seq<SpanCall>,
                         lo: nat, hi: nat, keys: set<Value>, keys': set<Value>)
    requires Submissions(t0, t1, s0, s1, lo, hi, keys')
    requires keys' <= keys
    ensures Submissions(t0, t1, s0, s1, lo, hi, keys)
  {
  }
}

=== FILE: time_map.dfy ===
/**
 * Time coordinate mapping: the per-trace scale factor and the linear map that
 * carries every original instant of a trace onto its new timeline.
 */
module TimeMap {
  import opened Values

  /** The trace's original start, parsed (None when absent or unparseable). */
  function OriginalStart(trace: Record, iso: IsoParser): Option<DateTime>
  {
    ParseDatetime(Get(trace, "start_time"), iso)
  }

  /** The trace's original end, parsed (None when absent or unparseable). */
  function OriginalEnd(trace: Record, iso: IsoParser): Option<DateTime>
  {
    ParseDatetime(Get(trace, "end_time"), iso)
  }

  /** `trace.get('duration', 0)`: the desired duration in milliseconds, 0 when absent. */
  function DurationOrZero(trace: Record): Value
  {
    if "duration" in trace then trace["duration"] else Num(0.0)
  }

  /**
   * compute_scale_factor. Identity (1.0) when either original timestamp is
   * missing or unparseable, when the duration is falsy, or when the original
   * window is not positive; otherwise the ratio that squeezes the original
   * window into the desired duration. Dividing a truthy non-number raises.
   */
  function ComputeScaleFactor(trace: Record, iso: IsoParser): (r: Result<real>)
    ensures OriginalStart(trace, iso).None? || OriginalEnd(trace, iso).None? || !Truthy(DurationOrZero(trace))
            ==> r == Ok(1.0)
    ensures r.Err? ==> r.fault.TypeError?
    ensures r.Err? <==>
              OriginalStart(trace, iso).Some? && OriginalEnd(trace, iso).Some?
              && Truthy(DurationOrZero(trace)) && !DurationOrZero(trace).Num?
    ensures OriginalStart(trace, iso).Some? && OriginalEnd(trace, iso).Some?
            && OriginalEnd(trace, iso).value.secs <= OriginalStart(trace, iso).value.secs
            && DurationOrZero(trace).Num?
            ==> r == Ok(1.0)
    ensures OriginalStart(trace, iso).Some? && OriginalEnd(trace, iso).Some?
            && OriginalEnd(trace, iso).value.secs > OriginalStart(trace, iso).value.secs
            && DurationOrZero(trace).Num? && DurationOrZero(trace).x != 0.0
            ==> r.Ok? && r.value * (OriginalEnd(trace, iso).value.secs - OriginalStart(trace, iso).value.secs)
                         == DurationOrZero(trace).x / 1000.0
  {
    var start := OriginalStart(trace, iso);
    var end := OriginalEnd(trace, iso);
    var duration := DurationOrZero(trace);
    if start.None? || end.None? || !Truthy(duration) then Ok(1.0)
    else if !duration.Num? then Err(TypeError("duration / 1000.0"))
    else
      var window := end.value.secs - start.value.secs;
      var desired := duration.x / 1000.0;
      if window <= 0.0 then Ok(1.0) else Ok(desired / window)
  }

  /**
   * `trace.get('duration', 2500) / 1000.0`: the length of the new window in
   * seconds, 2.5 when the field is absent; anything but a number raises.
   */
  function DesiredSeconds(trace: Record): (r: Result<real>)
    ensures "duration" !in trace ==> r == Ok(2.5)
    ensures r.Err? ==> r.fault.TypeError?
    ensures "duration" in trace ==> (r.Ok? <==> trace["duration"].Num?)
    ensures "duration" in trace && r.Ok? ==> r.value * 1000.0 == trace["duration"].x
  {
    if "duration" !in trace then Ok(2.5)
    else match trace["duration"]
      case Num(x) => Ok(x / 1000.0)
      case _ => Err(TypeError("duration / 1000.0"))
  }

  /**
   * The per-trace mapping: the original reference start, the new window and
   * the single scale factor shared by the trace and all its spans.
   */
  datatype Rescale = Rescale(origStart: real, newStart: real, newEnd: real, scale: real)

  /** new = newTraceStart + (orig - origTraceStart) * scale. */
  function MapPoint(rs: Rescale, t: real): (r: real)
    ensures t == rs.origStart ==> r == rs.newStart
  {
    rs.newStart + (t - rs.origStart) * rs.scale
  }

  /**
   * The reference start for span offsets: the trace's parsed original start,
   * or the trace's NEW start when the original does not parse.
   */
  function OriginalTraceStart(trace: Record, iso: IsoParser, newStart: real): (t: real)
    ensures OriginalStart(trace, iso).Some? ==> t == OriginalStart(trace, iso).value.secs
    ensures OriginalStart(trace, iso).None? ==> t == newStart
  {
    match OriginalStart(trace, iso)
    case Some(d) => d.secs
    case None => newStart
  }

  /** The mapping the replay builds for a trace placed at [newStart, newEnd]. */
  function TraceRescale(trace: Record, iso: IsoParser, scale: real, newStart: real, newEnd: real): Rescale
  {
    Rescale(OriginalTraceStart(trace, iso, newStart), newStart, newEnd, scale)
  }

  /**
   * Proportional compression: when the trace has a positive original window
   * and a non-zero numeric duration, its original start lands on the new
   * start and its original end lands exactly on the new end.
   */
  lemma WindowMapsOntoSlot(trace: Record, iso: IsoParser, newStart: real)
    requires OriginalStart(trace, iso).Some? && OriginalEnd(trace, iso).Some?
    requires OriginalEnd(trace, iso).value.secs > OriginalStart(trace, iso).value.secs
    requires "duration" in trace && trace["duration"].Num? && trace["duration"].x != 0.0
    ensures ComputeScaleFactor(trace, iso).Ok? && DesiredSeconds(trace).Ok?
    ensures var rs := TraceRescale(trace, iso, ComputeScaleFactor(trace, iso).value,
                                   newStart, newStart + DesiredSeconds(trace).value);
            MapPoint(rs, OriginalStart(trace, iso).value.secs) == rs.newStart
            && MapPoint(rs, OriginalEnd(trace, iso).value.secs) == rs.newEnd
  {
    var s := OriginalStart(trace, iso).value.secs;
    var e := OriginalEnd(trace, iso).value.secs;
    var scale := ComputeScaleFactor(trace, iso).value;
    assert scale * (e - s) == DesiredSeconds(trace).value;
  }

  /**
   * Offsets are rescaled uniformly: the distance between any two mapped
   * points is their original distance times the one scale factor, so siblings
   * keep their relative order whenever the scale is non-negative.
   */
  lemma UniformScaling(rs: Rescale, t1: real, t2: real)
    ensures MapPoint(rs, t2) - MapPoint(rs, t1) == (t2 - t1) * rs.scale
    ensures rs.scale >= 0.0 && t1 <= t2 ==> MapPoint(rs, t1) <= MapPoint(rs, t2)
  {
    if rs.scale >= 0.0 && t1 <= t2 {
      assert (t2 - t1) * rs.scale >= 0.0;
    }
  }

  /**
   * A missing duration keeps the identity scale but still gives the new
   * window a length of 2.5 s, so span offsets are not squeezed into it.
   */
  lemma MissingDurationAsymmetry(trace: Record, iso: IsoParser)
    requires "duration" !in trace
    ensures ComputeScaleFactor(trace, iso) == Ok(1.0)
    ensures DesiredSeconds(trace) == Ok(2.5)
  {
  }

  /**
   * Only a zero or absent duration triggers the identity fallback: a negative
   * duration on a positive window yields a negative scale, which reverses the
   * order of the trace's spans.
   */
  lemma NegativeDurationReversesSpans(trace: Record, iso: IsoParser, newStart: real, t1: real, t2: real)
    requires OriginalStart(trace, iso).Some? && OriginalEnd(trace, iso).Some?
    requires OriginalEnd(trace, iso).value.secs > OriginalStart(trace, iso).value.secs
    requires "duration" in trace && trace["duration"].Num? && trace["duration"].x < 0.0
    requires t1 < t2
    ensures ComputeScaleFactor(trace, iso).Ok? && ComputeScaleFactor(trace, iso).value < 0.0
    ensures var rs := TraceRescale(trace, iso, ComputeScaleFactor(trace, iso).value, newStart, newStart);
            MapPoint(rs, t2) < MapPoint(rs, t1)
  {
    var s := OriginalStart(trace, iso).value.secs;
    var e := OriginalEnd(trace, iso).value.secs;
    var scale := ComputeScaleFactor(trace, iso).value;
    assert scale * (e - s) < 0.0;
    assert scale < 0.0;
    var rs := TraceRescale(trace, iso, scale, newStart, newStart);
    UniformScaling(rs, t1, t2);
    assert (t2 - t1) * scale < 0.0;
  }

  /**
   * When the trace's own start does not parse, offsets are measured from the
   * new start with the identity scale, so every span instant is carried over
   * unchanged: the spans keep their original absolute times.
   */
  lemma UnparseableTraceStartKeepsSpanTimes(trace: Record, iso: IsoParser, newStart: real, newEnd: real, t: real)
    requires OriginalStart(trace, iso).None?
    ensures ComputeScaleFactor(trace, iso) == Ok(1.0)
    ensures MapPoint(TraceRescale(trace, iso, ComputeScaleFactor(trace, iso).value, newStart, newEnd), t) == t
  {
  }

  /**
   * The worked example: a 100 s original window and a 50000 ms duration give
   * scale 0.5, and an instant 40 s into the window lands 20 s after the new start.
   */
  lemma HalfScaleExample(t0: real, newStart: real, iso: IsoParser)
    ensures var trace := map["start_time" := Stamp(DateTime(t0, true)),
                             "end_time" := Stamp(DateTime(t0 + 100.0, true)),
                             "duration" := Num(50000.0)];
            ComputeScaleFactor(trace, iso) == Ok(0.5)
            && MapPoint(TraceRescale(trace, iso, 0.5, newStart, newStart + 50.0), t0 + 40.0) == newStart + 20.0
  {
    var trace := map["start_time" := Stamp(DateTime(t0, true)),
                     "end_time" := Stamp(DateTime(t0 + 100.0, true)),
                     "duration" := Num(50000.0)];
    assert OriginalStart(trace, iso) == Some(DateTime(t0, true));
    assert OriginalEnd(trace, iso) == Some(DateTime(t0 + 100.0, true));
    assert DurationOrZero(trace) == Num(50000.0);
    var r := ComputeScaleFactor(trace, iso);
    assert r.value * 100.0 == 50.0;
  }
}

=== FILE: values.dfy ===
/**
 * Values and records of the replayed corpus.
 *
 * Traces and spans are flat JSON objects; they are modelled as maps from field
 * names to a small universe of values. Times are exact real seconds since the
 * Unix epoch in UTC.
 */
module Values {

  datatype Option<+T> = None | Some(value: T)

  /** The exceptions the replay can raise, each of which aborts the current day. */
  datatype Fault =
    | KeyError(key: string)       // a subscript on a field the record lacks
    | TypeError(what: string)     // arithmetic on a value that is not a number, or naive/aware comparison
    | SinkError                   // the sink refused to create a trace

  datatype Result<+T> = Ok(value: T) | Err(fault: Fault)

  /**
   * A parsed datetime: an instant in seconds since the epoch, read as UTC, and
   * whether the parsed text carried a UTC offset (a naive datetime does not).
   */
  datatype DateTime = DateTime(secs: real, aware: bool)

  /**
   * A field value. `Other` stands for every other JSON value (booleans, nested
   * objects, arrays), told apart by its tag and its truthiness; as a span id
   * or parent id it is used as a table key like any other value; `Stamp` is a
   * datetime object; `Minted` is an identifier produced during the run (by the
   * time-sortable id generator when `at` is present, by uuid4 otherwise).
   */
  datatype Value =
    | Null
    | Num(x: real)
    | Text(s: string)
    | Stamp(t: DateTime)
    | Minted(serial: nat, at: Option<real>)
    | Other(truthy: bool, tag: nat)

  type Record = map<string, Value>

  /** The foreign ISO-8601 parser (fromisoformat after the 'Z' and space rewriting). */
  type IsoParser = string -> Option<DateTime>

  const ProjectName: string := "Opik Agent Observability"

  /** Python truthiness of a value. */
  predicate Truthy(v: Value)
  {
    match v
    case Null => false
    case Num(x) => x != 0.0
    case Text(s) => s != ""
    case Stamp(_) => true
    case Minted(_, _) => true
    case Other(t, _) => t
  }

  /** `record.get(key)`: a missing field reads as None. */
  function Get(r: Record, key: string): (v: Value)
    ensures key !in r ==> v == Null
    ensures key in r ==> v == r[key]
  {
    if key in r then r[key] else Null
  }

  /** `d.get(key)` on an identifier table: a missing key reads as None. */
  function Lookup(m: map<Value, Value>, key: Value): (v: Value)
    ensures key in m ==> v == m[key]
    ensures key !in m ==> v == Null
  {
    if key in m then m[key] else Null
  }

  /**
   * parse_datetime: a string goes to the ISO parser, a datetime object is
   * returned as it is, anything else is None.
   */
  function ParseDatetime(v: Value, iso: IsoParser): (r: Option<DateTime>)
    ensures v.Stamp? ==> r == Some(v.t)
    ensures !v.Text? && !v.Stamp? ==> r == None
  {
    match v
    case Text(s) => iso(s)
    case Stamp(t) => Some(t)
    case _ => None
  }

  /** safe_thread_id: the trace's thread_id, None when absent. */
  function SafeThreadId(trace: Record): (v: Value)
    ensures "thread_id" in trace ==> v == trace["thread_id"]
    ensures "thread_id" !in trace ==> !Truthy(v)
  {
    Get(trace, "thread_id")
  }

  /** A datetime value the rewrite writes into a record (always UTC-aware). */
  function UtcStamp(t: real): Value
  {
    Stamp(DateTime(t, true))
  }
}
